=== FILE: README.md ===
# Receipt splitting and the two-person debt ledger

A Dafny model of the two computational cores of a small expense-sharing web app for two people
(David and Popa):

- **The receipt flow.** A supermarket receipt's OCR text is cleaned into trimmed, non-empty
  lines. Each line is classified in a fixed priority order:
  1. vendor noise
  2. total
  3. discount
  4. quantity × unit-price item
  5. simple priced item
  6. anything else, which is skipped

  One fold threads the item list, the declared total and the most recent item. Discount lines
  are folded into the most recent item. The receipt's shown total is the declared total when it
  is positive, otherwise the sum of the net prices. The user can then:
  - set a per-item fraction through a prompt parsed by `parseFraction` and bounded to (0, 5]
  - tick items
  - confirm, which records the ticked shares as a debt of the person who did not pay
- **The debt ledger.** Each person has a list of debt entries. The page handlers add a debt read
  from a prompt, delete an entry with `splice`, and settle a person's whole debt into a
  settlement history. The page shows each person's total.

Modules, one per file:

| module | file | what it holds |
|---|---|---|
| `Results` | results.dfy | `Option` and `Result` |
| `Text` | text.dfy | `trim`, one-character `split`/`replace`, the line cleaning |
| `Decimal` | decimal.dfy | the captured token grammars; reading tokens with either separator; `parseFloat` and `Number` on strings |
| `ReceiptParser` | receipt_parser.dfy | items, line classification, the fold, the shown total |
| `ReceiptText` | receipt_text.dfy | the captures of the receipt patterns read into lines; the whole pipeline from text; worked examples |
| `Selection` | selection.dfy | `parseFraction`, the fraction dialog, the selected sum, confirmation |
| `DebtLedger` | debt_ledger.dfy | the ledger and its handlers |
| `LedgerEvents` | ledger_events.dfy | the ledger under any sequence of handler calls |

Modelling choices:

- **Money.** Amounts are exact `real`s, not IEEE doubles.
- **Regular expressions.** The regexes are abstracted. A line is given as what the patterns
  capture (`ReceiptText.Captures`). The captured literals are typed by their grammar:
  - `\d+[.,]\d{2}` for prices and totals
  - `-?\d+[.,]\d{2}` for discounts
  - `\d+[.,]?\d*` for quantities

  `ReceiptText.ReadLine` reads each literal to the value that the code's
  `parseFloat(token.replace(',', '.'))` gives, and trims names. `ReceiptText.ReadLineAsWritten`
  states this with `parseFloat` itself, through `Decimal.CapturedTokenReading`. The parser then
  works on numbers.
- **`lastItem`.** It is modelled as the index of the most recent item. The code keeps an object
  reference to the item, which is the same thing, because items are only ever appended.
- **Browser inputs.** The browser's inputs become parameters:
  - a prompt's answer is `Option<string>`, with `None` for a cancelled prompt
  - a confirm dialog is a `bool`
  - the date string is a `string`
  - the payer selector is a `Party`
  - the checkbox states are a `seq<bool>`
- **Refusals.** A refused operation is an `Err` (`ResetDebts`, `Confirm`) or a `Rejected`
  fraction edit. These are the cases where the page shows an alert and changes nothing.

## Model

| member | source | states |
|---|---|---|
| Text.Trim | receipt.js:19 | `trim` gives a string with no whitespace at either end. That string is empty exactly when the input is all whitespace. Otherwise it is the slice between the leading and the trailing whitespace. |
| Text.TrimPadded | receipt.js:51 | Trimming a name padded with whitespace on both sides gives back exactly the name. |
| Text.Split | receipt.js:19 | `split` gives pieces free of the separator. Joining them gives the text back. There is a single piece exactly when the separator does not occur. |
| Text.SplitJoin | receipt.js:184 | `split` inverts joining with the separator. |
| Text.ReplaceFirst | receipt.js:34 | `replace(',', '.')` replaces only the first comma and keeps the length. |
| Text.Lines | receipt.js:19 | The cleaned lines are non-empty, trimmed and free of newlines. There are none exactly when the text is blank. |
| Text.SplitAround | receipt.js:19 | Splitting text made of two parts around a separator gives the pieces of the first part, then those of the second. |
| Text.CleanAppend | receipt.js:19 | Trimming and dropping empty pieces works piece by piece: cleaning two lists one after the other gives the cleaning of their concatenation. |
| Text.CleanOne | receipt.js:19 | One piece cleans to its trimmed form, or to nothing when it is blank. |
| Text.LinesAround | receipt.js:19 | The lines of two texts joined by a newline are the lines of the first, then those of the second. |
| Text.LinesOne | receipt.js:19 | Text without a newline gives one line, its trimmed form, unless it is blank, when it gives none. With `LinesAround`, the lines are exactly the trimmed non-blank newline-separated pieces, in order. |
| Decimal.ReadDecimal | receipt.js:34 | A digits–separator–digits literal reads as its integer part plus its fraction part, whichever separator it uses. |
| Decimal.DotSeparator | receipt.js:34 | `replace(',', '.')` on a digits–separator–digits literal turns its separator into a point and changes nothing else. |
| Decimal.AmountDigits | receipt.js:33-34 | A price or total token reads as its integer digits plus its two decimals as hundredths. |
| Decimal.ReadSigned | receipt.js:40-42 | A discount token without a minus sign reads as its unsigned amount. One with a minus sign reads as the negated unsigned amount. |
| Decimal.QuantityDigits | receipt.js:52 | A quantity token reads as its leading digits plus the decimals after its separator. |
| Decimal.ShowCents | receipt.js:33-34 | A cent amount printed with either separator is a price token that reads back as the amount in whole currency units (round trip). |
| Decimal.ParseShowNat | receipt.js:187 | A printed whole number reads back as itself. |
| Decimal.NumberOf | receipt.js:184 | `Number` on blank text is 0, and only a string containing `-` reads as a negative number. |
| Decimal.NumberRejectsTrailing | receipt.js:184 | Unlike `parseFloat`, `Number` needs the whole text to be one number: a whole number followed by text that is not all whitespace and does not start with a digit, a point or an exponent mark (nor, after a zero, with a radix mark `x`, `o` or `b`) is not a number. |
| Decimal.NumberIgnoresPadding | receipt.js:184 | `Number` ignores surrounding whitespace: " 2 " is 2. |
| Decimal.ParseFloat | receipt.js:187 | `parseFloat` gives a negative number only for text containing `-`. |
| Decimal.ParseFloatSkipsSpace | receipt.js:187 | `parseFloat` ignores leading whitespace. |
| Decimal.ParseFloatPlusSign | receipt.js:187 | `parseFloat` accepts a leading `+`: "+" before a whole number reads as that number. |
| Decimal.ParseFloatLeadingPoint | receipt.js:187 | `parseFloat` reads a fraction with no integer digits: ".5" is 0.5. |
| Decimal.ParseFloatRejects | script.js:45 | `parseFloat` on text whose first non-space character is not a sign, a digit, a point or the start of `Infinity` is not a number. |
| Decimal.CapturedTokenReading | receipt.js:34 | On every price, total, discount and quantity token the patterns capture, `parseFloat(token.replace(',', '.'))` gives a number, and it is the strict reading `ReadLiteral` of the token. |
| Decimal.FloatReadsLiterals | receipt.js:34 | On a plain decimal literal, `parseFloat` and `Number` read the whole literal and agree with the strict reading used for captured tokens. |
| Decimal.ScanReadsLiteral | receipt.js:34 | The longest-prefix scan behind `parseFloat` and `Number` consumes a whole plain literal and reads its strict value. |
| Decimal.ParseFloatStopsEarly | script.js:45 | `parseFloat` reads only the numeric prefix: a whole number followed by a character that is neither a digit, a point nor an exponent mark reads as that whole number. |
| ReceiptParser.AtLeastZero | receipt.js:44 | `Math.max(x, 0)` is at least both 0 and `x`, and is one of them. |
| ReceiptParser.Abs | receipt.js:42 | `Math.abs` is non-negative and is either the value or its negation. |
| ReceiptParser.ReconciledBounds | receipt.js:42-44 | A reconciled item's net price lies between 0 and its gross price. |
| ReceiptParser.NewItem | receipt.js:77-85 | A new item starts reconciled. |
| ReceiptParser.ApplyDiscount | receipt.js:42-44 | A discount adds its amount to the item's discount and lowers the net price by it, floored at 0. The item stays reconciled. Name, gross price and fraction are unchanged. |
| ReceiptParser.QuantityItem | receipt.js:55-62 | A quantity item's price is quantity × unit price. It starts with discount 0, fraction 1 and net equal to gross. |
| ReceiptParser.Classify | receipt.js:28-88 | A line is classified by the first rule that applies, in the order noise, total, discount, quantity item, simple item. It is unrecognised exactly when none applies. Each kind carries that rule's capture. |
| ReceiptParser.Draft | receipt.js:49-88 | Only a line that is not noise, not a total and not a discount creates an item. A quantity match always creates the quantity item, so it is never read as a simple item. Otherwise a simple match creates the simple item exactly when its price is positive. A line matching neither creates nothing. New items start with discount 0, fraction 1 and net price = price. |
| ReceiptParser.OnTotal | receipt.js:32-36 | A total line with an amount sets the declared total to that amount and never touches the items. Without an amount the line changes nothing. |
| ReceiptParser.OnDiscount | receipt.js:39-47 | A discount changes only the most recent item, by its absolute amount. With no amount or no item yet, nothing changes. |
| ReceiptParser.Step | receipt.js:28-89 | One line keeps the invariant: every item is reconciled with fraction 1, and the last-item reference is absent exactly when the list is empty, and otherwise points to its final element. A skipped line changes nothing. A creating line appends its item and makes it the most recent. |
| ReceiptParser.StepDeclared | receipt.js:32-36 | Only a total line with an amount changes the declared total. A total line never creates or touches an item. |
| ReceiptParser.StepKeepsOrigins | receipt.js:39-47 | A line that creates no item changes at most the most recent item, and only in its discount and net price. |
| ReceiptParser.Run | receipt.js:28-89 | The fold preserves the invariant. |
| ReceiptParser.Parse | receipt.js:21-89 | Parsing from the empty state yields a state satisfying the invariant. |
| ReceiptParser.RunAppend | receipt.js:28 | Parsing two pieces of a line sequence one after the other is parsing the whole. |
| ReceiptParser.RunDrafts | receipt.js:65-66 | The fold keeps the items it started with and appends, in line order, exactly the items the lines create. |
| ReceiptParser.ParseInLineOrder | receipt.js:65-87 | The parsed items correspond one to one, in line order, to the items the lines describe when read independently. |
| ReceiptParser.RunDeclared | receipt.js:34 | The declared total is the amount of the last total line that carries one. A later total overwrites an earlier one. |
| ReceiptParser.SkippedLineIsTransparent | receipt.js:29-30 | A skipped line (noise, an amountless total or discount, a zero-priced item, an unrecognised line), wherever it stands, leaves the parse as if it were absent. |
| ReceiptParser.OrphanDiscountDropped | receipt.js:41 | A discount before any item is dropped. It creates no phantom item and does not affect later lines. |
| ReceiptParser.DiscountsAccumulate | receipt.js:43-44 | Successive discounts accumulate into the most recent item. Its discount grows by their sum and its net price becomes gross − all discounts, floored at 0. Every other item, the declared total and the reference stay unchanged. |
| ReceiptParser.NetSum | receipt.js:93 | The sum of reconciled net prices lies between 0 and the gross sum. |
| ReceiptParser.UsableTotal | receipt.js:91-93 | The shown total is the declared total when it is positive. Otherwise it is the net-price sum. It is never negative. |
| ReceiptParser.ParseReceipt | receipt.js:19-93 | The handler's loop computes exactly the fold and then the shown total. |
| ReceiptParser.SumFinalPrices | receipt.js:93 | The `reduce` over the items adds up exactly their net prices. |
| ReceiptText.ReadLine | receipt.js:33-76 | Reading captures keeps which patterns matched. A total reads as its token's amount, a discount's magnitude is its token's unsigned value, and a quantity item's quantity and unit price and a simple item's price are their tokens' values. Item names are the captured names trimmed. |
| ReceiptText.ReadLineAsWritten | receipt.js:33-76 | Every number in the read line is what `parseFloat(token.replace(',', '.'))` gives on its token, and every name is `trim` of its capture. |
| ReceiptText.SignedValue | receipt.js:40-42 | A discount token without a minus sign reads as its unsigned amount, one with a minus sign as the negated unsigned amount. |
| ReceiptText.ParseText | receipt.js:18-19 | The whole pipeline from OCR text satisfies the invariant. Blank text gives no items and no declared total. |
| ReceiptText.QuantityThenDiscountExample | receipt.js:39-66 | "Melk 1.5 x 0,89" then "Actieprijs -0,20" gives one item: gross 1.335, discount 0.20, net 1.135. |
| ReceiptText.DeclaredTotalExample | receipt.js:32-34 | "TOTAAL 23,45" declares 23.45, which is then the shown total. |
| ReceiptText.TotalAmountExample | receipt.js:33-34 | The total token "23,45" reads as 23.45. |
| ReceiptText.BreadExample | receipt.js:71-86 | "Brood 1,29 B" gives one item: gross 1.29, discount 0, net 1.29, fraction 1. |
| Selection.ParseFraction | receipt.js:182-188 | Without `/`, the answer is read by `parseFloat`. With `/`, a divisor reading as 0 gives no number. |
| Selection.Quotient | receipt.js:185 | `b ? a / b : NaN` gives a number exactly when both parts read and the divisor is non-zero. That number times the divisor is the dividend. |
| Selection.FractionRoundTrip | receipt.js:182-188 | "a/b" with whole numbers reads as a/b, and as no number when b = 0. |
| Selection.FractionParts | receipt.js:183-185 | Text with one `/` between two digit strings reads as the quotient of their `Number` readings. |
| Selection.FractionPartsIgnoreRest | receipt.js:183-185 | With two or more `/`, only the pieces before the first and between the first and second `/` are read: digit strings there read as the quotient of their `Number` readings, whatever follows. |
| Selection.SetFraction | receipt.js:166-175 | A cancelled or empty answer changes nothing. The fraction is stored exactly when the answer reads as a number in (0, 5], and only that item's fraction changes. Any other answer is refused. |
| Selection.SetFractionKeepsValid | receipt.js:170-171 | An accepted edit keeps every item valid, leaves the other items unchanged, and changes nothing of the edited item but its fraction. |
| Selection.WholeFractionAccepted | receipt.js:168-171 | Any whole-number fraction "a/b" in (0, 5], such as "2/3", is accepted as exactly a/b. |
| Selection.ZeroDivisorExample | receipt.js:185 | "1/0" is refused. |
| Selection.ZeroDivisorReading | receipt.js:185 | "1/0" reads as no number. |
| Selection.OutOfBoundExamples | receipt.js:170 | "0" and "6" are refused. |
| Selection.NegativeExample | receipt.js:170 | "-1" is refused. |
| Selection.CommaExample | receipt.js:187 | "1,5" is read by `parseFloat` up to the comma and sets the fraction to 1. |
| Selection.CommaQuotientExample | receipt.js:183-185 | "1,5/2" is refused, because `Number` reads "1,5" as no number. |
| Selection.Share | receipt.js:202 | An item's share lies between 0 and 5 × its net price; `Selection.FractionEditShifts` pins it as the net price weighted by the fraction. |
| Selection.SelectedTotal | receipt.js:198-206 | The sum of the checked items' shares lies between 0 and 5 × the net-price sum. |
| Selection.SelectedTotalZero | receipt.js:212-218 | With valid items, the selected sum is 0 exactly when every checked item has net price 0. |
| Selection.TickAdds | receipt.js:202 | Ticking an unticked item adds exactly its share to the sum. |
| Selection.ShareEditShifts | receipt.js:198-205 | Changing only one checked item's share by some amount moves the selected sum by exactly that amount. |
| Selection.FractionEditShifts | receipt.js:166-173 | An accepted fraction edit on a checked item from g to f moves the selected sum by the item's net price × (f − g): the share is the net price weighted by the fraction. |
| Selection.SelectedUpTo | receipt.js:201-202 | The sum depends only on the checkboxes of the items it covers. |
| Selection.AllWholeIsNet | receipt.js:202 | With every item ticked and wholly attributed, the selected sum is the receipt's net-price sum. |
| Selection.UpdateSelectedSum | receipt.js:198-206 | The page's loop computes exactly the selected sum. |
| Selection.Confirm | receipt.js:212-225 | A zero selected sum is refused. Otherwise exactly one entry is appended to the non-payer's list, with that sum, the date and the declared receipt total. The payer's list and the history are unchanged. The ledger stays valid. |
| Selection.ConfirmAddsSelected | receipt.js:220-225 | Confirming raises the non-payer's total by exactly the selected sum. |
| DebtLedger.Other | script.js:63 | The other party is never the given one. |
| DebtLedger.Empty | script.js:4 | The initial ledger has no debts and no history, and is valid. |
| DebtLedger.WithDebts | script.js:71 | Replacing one person's list leaves the other person's list and the history alone. |
| DebtLedger.DebtTotalPositive | script.js:60-61 | A total of positive entries is non-negative, and is 0 exactly when the list is empty. |
| DebtLedger.TotalAppend | script.js:60 | Appending an entry adds its amount to the total. |
| DebtLedger.TotalConcat | script.js:60 | Totals add over concatenation. |
| DebtLedger.RenderTotal | script.js:25-38 | The displayed per-person total is the sum of that person's entry amounts. With positive entries it is positive exactly when there are entries. |
| DebtLedger.AddDebt | script.js:44-50 | The ledger changes exactly when the answer reads as a number > 0, and then exactly one such entry, without a note, is appended to that person's list. The other list and the history are never touched. The ledger stays valid. |
| DebtLedger.Amount | script.js:45-46 | A recorded amount is positive. |
| DebtLedger.CommaAnswerRecordsWholePart | script.js:45 | The answer "12,50" records a debt of 12. |
| DebtLedger.NonNumericAnswerIgnored | script.js:45-46 | A non-numeric or cancelled answer leaves the ledger unchanged. |
| DebtLedger.SpliceStart | script.js:54 | `splice`'s start is the index when it is in range, counts from the end when it is negative, is clamped at 0 when the index is below minus the length, and is the length when the index is at or past the end. |
| DebtLedger.Splice1 | script.js:54 | `splice(index, 1)` removes exactly the entry at the start position, keeping the rest in order. It leaves the list unchanged when that position is past the end. |
| DebtLedger.DeleteDebt | script.js:52-57 | Without confirmation nothing changes. With it, the person's list is spliced at the index. The other list and the history are unchanged, and the ledger stays valid. |
| DebtLedger.DeleteSubtracts | script.js:54 | Deleting an in-range entry lowers the person's total by exactly its amount. |
| DebtLedger.AddThenDelete | script.js:44-57 | Deleting a just-added entry by its index restores the ledger (inverse). |
| DebtLedger.ResetDebts | script.js:59-73 | Settlement with a zero total is refused and changes nothing. Otherwise it appends exactly one history record (from the person, to the other, for the pre-clear total), empties that person's list and leaves the other list unchanged. The ledger stays valid. |
| DebtLedger.ResetRefusedIffNoDebts | script.js:60-61 | On a valid ledger, settlement is refused exactly when the person has no entries. The settled amount is their positive total. |
| DebtLedger.ResetConserves | script.js:60-71 | Settlement moves money from the outstanding debts to the settled history: their combined sum is unchanged. |
| LedgerEvents.Apply | script.js:44-73 | Every handler, including a receipt confirmation over valid items, keeps the ledger valid and only appends to the history. |
| LedgerEvents.ReplayKeepsValid | script.js:46-47 | After any sequence of handler calls, every debt entry is positive and every settlement is a positive transfer between the two people. |
| LedgerEvents.HistoryAppendOnly | script.js:64-69 | No sequence of handler calls rewrites or drops a past settlement. |
| LedgerEvents.ParsedReceiptReachable | receipt.js:166-225 | Confirming freshly parsed items, or items after an accepted fraction edit, is a reachable confirmation and keeps a valid ledger valid. |

## Left out

- **OCR.** The Tesseract call is external. `ReceiptText.ParseText` takes the recognised text as an input, and takes the regex matching on one line as a function parameter.
- **The regular-expression engine.**
  - Patterns are abstracted to their captures: which patterns match, and the captured literals. The literals are typed by their grammar.
  - The `/i` flag's case folding is not modelled.
  - The letter class `À-ÿ` in names is not modelled.
- **The `isNaN` guards on captured literals.** These are receipt.js:54 and the NaN half of receipt.js:75. They cannot fail, because every captured literal starts with a digit. `ReceiptText.ReadLine` reads such literals to numbers (`ReadSigned`, `ReadDecimal`).
- **Translation, links and rendering.** These cover the translation service and its cache, `getLidlLink`, all HTML rendering and `updateFractionInfo`. They are network I/O or display.
- **Persistence.** The receipt page reads and writes the debts in `localStorage`. The debts page reads and writes `debts` and `history` to a Firestore document. The whole-document overwrite is a concurrency concern. The model has one `Ledger` value that the handlers transform. It does not model the two stores being distinct.
- **Dialogs, navigation and dates.** `prompt`, `confirm` and `alert` become parameters and results, `window.location` is left out, and the locale date string is a parameter.
- **`toFixed`.** Formatting with two decimals is display only. The receipt note stores the declared total as a number, not as the formatted text.
- **IEEE doubles.** Rounding in `qty * unit`, in the sums and in `finalPrice * fraction` is not modelled: amounts are exact reals. Consequently, the `=== 0` checks in confirm and settlement are exact comparisons here.
- Decimal.ParseFloat: reads `[+-]?(\d+(\.\d*)?|\.\d+)` after leading whitespace. It does not model exponent notation (`1e3`) or `Infinity`, which JavaScript's `parseFloat` also accepts.
- Decimal.NumberOf: does not model exponents, `Infinity`, or hexadecimal, octal and binary literals, which JavaScript's `Number` accepts.
- **`history.js`.** It is display only.

=== FILE: debt_ledger.dfy ===
/** The shared debt ledger: for each of the two people, the list of amounts they owe the other,
    and a history of settlements. Adding, deleting and settling debts are the page's handlers;
    the rendering of each person's total is the loop that sums their entries. */
module DebtLedger {
  import opened Results
  import Decimal

  /** The two people sharing expenses. */
  datatype Party = David | Popa

  /** The other person: `person === 'david' ? 'popa' : 'david'`. */
  function Other(p: Party): (q: Party)
    ensures q != p
  {
    if p == David then Popa else David
  }

  /** A note on a debt entry: none for a manual entry, the receipt's declared total for one added
      from a receipt. */
  datatype Note = NoNote | ReceiptNote(receiptTotal: real)

  /** One debt: an amount owed, the date it was recorded and an optional note. */
  datatype Entry = Entry(amount: real, date: string, note: Note)

  /** A settlement: on `date`, `from` paid `to` the whole of what they owed. */
  datatype Transfer = Transfer(date: string, from: Party, to: Party, amount: real)

  datatype Ledger = Ledger(david: seq<Entry>, popa: seq<Entry>, history: seq<Transfer>)

  /** The ledger the page starts from when nothing is stored yet. */
  function Empty(): (l: Ledger)
    ensures Valid(l)
    ensures Debts(l, David) == [] && Debts(l, Popa) == [] && l.history == []
  {
    Ledger([], [], [])
  }

  /** The entries `p` owes. */
  function Debts(l: Ledger, p: Party): seq<Entry> {
    match p
    case David => l.david
    case Popa => l.popa
  }

  /** Replaces the entries of `p`, leaving the other person and the history alone. */
  function WithDebts(l: Ledger, p: Party, es: seq<Entry>): (r: Ledger)
    ensures Debts(r, p) == es
    ensures Debts(r, Other(p)) == Debts(l, Other(p))
    ensures r.history == l.history
  {
    match p
    case David => l.(david := es)
    case Popa => l.(popa := es)
  }

  /** The sum of the entries' amounts, accumulated from the first entry on. */
  function DebtTotal(es: seq<Entry>): real {
    if es == [] then 0.0 else DebtTotal(es[..|es| - 1]) + es[|es| - 1].amount
  }

  predicate Positive(es: seq<Entry>) {
    forall i :: 0 <= i < |es| ==> es[i].amount > 0.0
  }

  /** What the page's own operations maintain: every debt entry is a positive amount, and every
      settlement moved a positive amount from one person to the other. */
  predicate Valid(l: Ledger) {
    && Positive(l.david)
    && Positive(l.popa)
    && forall i :: 0 <= i < |l.history| ==>
         l.history[i].from != l.history[i].to && l.history[i].amount > 0.0
  }

  /** The total of positive entries is positive exactly when there is at least one entry. */
  lemma {:induction false} DebtTotalPositive(es: seq<Entry>)
    requires Positive(es)
    ensures DebtTotal(es) >= 0.0
    ensures DebtTotal(es) == 0.0 <==> es == []
  {
    if es != [] {
      var init := es[..|es| - 1];
      assert forall i :: 0 <= i < |init| ==> init[i] == es[i];
      DebtTotalPositive(init);
    }
  }

  /** Appending an entry adds its amount to the total. */
  lemma TotalAppend(es: seq<Entry>, e: Entry)
    ensures DebtTotal(es + [e]) == DebtTotal(es) + e.amount
  {
    assert (es + [e])[..|es|] == es;
  }

  /** Totals split over a concatenation. */
  lemma {:induction false} TotalConcat(a: seq<Entry>, b: seq<Entry>)
    ensures DebtTotal(a + b) == DebtTotal(a) + DebtTotal(b)
    decreases |b|
  {
    if b != [] {
      var init := b[..|b| - 1];
      assert (a + b)[..|a + b| - 1] == a + init;
      assert (a + b)[|a + b| - 1] == b[|b| - 1];
      TotalConcat(a, init);
    } else {
      assert a + b == a;
    }
  }

  /** The per-person total shown on the page: the loop over the person's entries. */
  method RenderTotal(es: seq<Entry>) returns (total: real)
    ensures total == DebtTotal(es)
    ensures Positive(es) ==> (total > 0.0 <==> es != [])
  {
    total := 0.0;
    var i := 0;
    while i < |es|
      invariant 0 <= i <= |es|
      invariant total == DebtTotal(es[..i])
    {
      assert es[..i + 1][..i] == es[..i];
      total := total + es[i].amount;
      i := i + 1;
    }
    assert es[..|es|] == es;
    if Positive(es) {
      DebtTotalPositive(es);
    }
  }

  /** The manual "add debt" handler: `input` is what the amount prompt returned (None when it was
      cancelled), read with `parseFloat`. Only a positive reading is recorded, as a new last entry
      of `p` without a note; anything else leaves the ledger as it was. */
  function AddDebt(l: Ledger, p: Party, input: Option<string>, date: string): (r: Ledger)
    ensures r != l <==> Recorded(input)
    ensures Recorded(input) ==> Debts(r, p) == Debts(l, p) + [Entry(Amount(input), date, NoNote)]
    ensures Debts(r, Other(p)) == Debts(l, Other(p)) && r.history == l.history
    ensures Valid(l) ==> Valid(r)
  {
    if Recorded(input) then
      var r := WithDebts(l, p, Debts(l, p) + [Entry(Amount(input), date, NoNote)]);
      assert |Debts(r, p)| != |Debts(l, p)|;
      r
    else l
  }

  /** The prompt's answer reads as a positive number (`!isNaN(value) && value > 0`). A cancelled
      prompt gives `parseFloat(null)`, which is `NaN`. */
  predicate Recorded(input: Option<string>) {
    input.Some? && Decimal.ParseFloat(input.value).Some? && Decimal.ParseFloat(input.value).value > 0.0
  }

  function Amount(input: Option<string>): (v: real)
    requires Recorded(input)
    ensures v > 0.0
  {
    Decimal.ParseFloat(input.value).value
  }

  /** A comma-decimal answer is read only up to the comma: "12,50" records a debt of 12. */
  lemma CommaAnswerRecordsWholePart(l: Ledger, p: Party, date: string)
    ensures AddDebt(l, p, Some("12,50"), date) == WithDebts(l, p, Debts(l, p) + [Entry(12.0, date, NoNote)])
  {
    assert Decimal.ShowNat(12) == "12";
    Decimal.ParseFloatStopsEarly(12, ",50");
    assert "12" + ",50" == "12,50";
  }

  /** An answer that does not start with a number records nothing. */
  lemma NonNumericAnswerIgnored(l: Ledger, p: Party, date: string)
    ensures AddDebt(l, p, Some("abc"), date) == l
    ensures AddDebt(l, p, None, date) == l
  {
    assert Decimal.DigitRun("abc", 0) == 0;
  }

  /** `splice(index, 1)`'s start position: a negative index counts from the end (clamped at 0),
      a positive one is clamped at the length. */
  function SpliceStart(len: nat, index: int): (k: nat)
    ensures k <= len
    ensures 0 <= index < len ==> k == index
    ensures -(len as int) <= index < 0 ==> k == len + index
    ensures index < -(len as int) ==> k == 0
    ensures k == len <==> index >= len || len == 0
  {
    if index < 0 then (if len + index < 0 then 0 else len + index)
    else if index < len then index
    else len
  }

  /** `es.splice(index, 1)`: the entry at the start position is removed, if there is one. */
  function Splice1(es: seq<Entry>, index: int): (r: seq<Entry>)
    ensures |r| == |es| - 1 <==> SpliceStart(|es|, index) < |es|
    ensures |r| == |es| <==> SpliceStart(|es|, index) == |es|
    ensures forall i :: 0 <= i < SpliceStart(|es|, index) && i < |r| ==> r[i] == es[i]
    ensures forall i :: SpliceStart(|es|, index) <= i < |r| ==> r[i] == es[i + 1]
  {
    var k := SpliceStart(|es|, index);
    if k == |es| then es else es[..k] + es[k + 1..]
  }

  /** The "delete" handler: after a confirmed dialog, entry `index` of `p` is spliced out. */
  function DeleteDebt(l: Ledger, p: Party, index: int, confirmed: bool): (r: Ledger)
    ensures !confirmed ==> r == l
    ensures confirmed ==> Debts(r, p) == Splice1(Debts(l, p), index)
    ensures Debts(r, Other(p)) == Debts(l, Other(p)) && r.history == l.history
    ensures Valid(l) ==> Valid(r)
  {
    if confirmed then WithDebts(l, p, Splice1(Debts(l, p), index)) else l
  }

  /** Deleting an entry removes exactly its amount from the total. */
  lemma DeleteSubtracts(l: Ledger, p: Party, index: int)
    requires 0 <= index < |Debts(l, p)|
    ensures DebtTotal(Debts(DeleteDebt(l, p, index, true), p)) == DebtTotal(Debts(l, p)) - Debts(l, p)[index].amount
  {
    var es := Debts(l, p);
    assert es == es[..index] + [es[index]] + es[index + 1..];
    assert Splice1(es, index) == es[..index] + es[index + 1..];
    TotalConcat(es[..index] + [es[index]], es[index + 1..]);
    TotalConcat(es[..index], [es[index]]);
    TotalConcat(es[..index], es[index + 1..]);
    assert DebtTotal([es[index]]) == es[index].amount by {
      assert [es[index]][..0] == [];
    }
  }

  /** Deleting a just-added entry (confirmed, by its index) undoes the addition. */
  lemma AddThenDelete(l: Ledger, p: Party, input: Option<string>, date: string)
    requires Recorded(input)
    ensures DeleteDebt(AddDebt(l, p, input, date), p, |Debts(l, p)|, true) == l
  {
    var es := Debts(l, p);
    var added := es + [Entry(Amount(input), date, NoNote)];
    assert Splice1(added, |es|) == es by {
      assert added[..|es|] == es;
    }
    match p
    case David =>
    case Popa =>
  }

  /** Why settling refuses: the person owes nothing. */
  datatype ResetError = NothingToReset

  /** The "reset" handler: the whole of `p`'s total is recorded as paid to the other person and
      `p`'s entries are cleared; with a zero total nothing changes and the page alerts. */
  function ResetDebts(l: Ledger, p: Party, date: string): (r: Result<Ledger, ResetError>)
    ensures r.Err? <==> DebtTotal(Debts(l, p)) == 0.0
    ensures r.Ok? ==> Debts(r.value, p) == [] && Debts(r.value, Other(p)) == Debts(l, Other(p))
    ensures r.Ok? ==> r.value.history == l.history + [Transfer(date, p, Other(p), DebtTotal(Debts(l, p)))]
    ensures Valid(l) && r.Ok? ==> Valid(r.value)
  {
    var total := DebtTotal(Debts(l, p));
    if total == 0.0 then Err(NothingToReset)
    else
      assert Valid(l) ==> total > 0.0 by {
        if Valid(l) {
          DebtTotalPositive(Debts(l, p));
        }
      }
      Ok(WithDebts(l, p, []).(history := l.history + [Transfer(date, p, Other(p), total)]))
  }

  /** On a ledger the page's operations produced, settling refuses exactly when the person has no
      entries, and the amount settled is what the page showed as their total. */
  lemma ResetRefusedIffNoDebts(l: Ledger, p: Party, date: string)
    requires Valid(l)
    ensures ResetDebts(l, p, date).Err? <==> Debts(l, p) == []
    ensures ResetDebts(l, p, date).Ok? ==>
      ResetDebts(l, p, date).value.history[|l.history|].amount == DebtTotal(Debts(l, p)) > 0.0
  {
    DebtTotalPositive(Debts(l, p));
  }

  /** The debts across both people and the settled amounts: settling only moves money from the
      first to the second, so this sum is conserved. */
  function Settled(h: seq<Transfer>): real {
    if h == [] then 0.0 else Settled(h[..|h| - 1]) + h[|h| - 1].amount
  }

  function Outstanding(l: Ledger): real {
    DebtTotal(l.david) + DebtTotal(l.popa)
  }

  lemma {:induction false} ResetConserves(l: Ledger, p: Party, date: string)
    requires ResetDebts(l, p, date).Ok?
    ensures var r := ResetDebts(l, p, date).value;
      Outstanding(r) + Settled(r.history) == Outstanding(l) + Settled(l.history)
  {
    var r := ResetDebts(l, p, date).value;
    assert r.history[..|r.history| - 1] == l.history;
    match p
    case David =>
    case Popa =>
  }
}

=== FILE: decimal.dfy ===
/** Decimal literals as the receipt code reads them: a captured token has its first comma
    replaced by a dot and is then read as a JavaScript number. Values are exact reals. */
module Decimal {
  import opened Results
  import Text

  predicate IsDigit(c: char) {
    '0' <= c <= '9'
  }

  predicate AllDigits(s: string) {
    forall i :: 0 <= i < |s| ==> IsDigit(s[i])
  }

  /** The decimal separators the receipt patterns accept. */
  predicate IsSeparator(c: char) {
    c == '.' || c == ','
  }

  function DigitValue(c: char): nat
    requires IsDigit(c)
  {
    c as int - '0' as int
  }

  /** The natural number a digit string denotes, most significant digit first. */
  function DigitsValue(s: string): nat
    requires AllDigits(s)
  {
    if s == [] then 0 else 10 * DigitsValue(s[..|s| - 1]) + DigitValue(s[|s| - 1])
  }

  /** `x` divided by ten, `n` times. */
  function Shift(x: real, n: nat): (y: real)
    ensures x >= 0.0 ==> 0.0 <= y <= x
  {
    if n == 0 then x else Shift(x, n - 1) / 10.0
  }

  /** The value of the digits after a decimal point: the number they spell, shifted right by
      their count. */
  function FractionValue(ds: string): (v: real)
    requires AllDigits(ds)
    ensures v >= 0.0
  {
    Shift(DigitsValue(ds) as real, |ds|)
  }

  /** Reading of an unsigned decimal literal: one or more digits, optionally followed by a dot
      and further digits. Anything else is not a number (`NaN`). */
  function ParseUnsigned(s: string): (r: Option<real>)
    ensures r.Some? ==> r.value >= 0.0
  {
    var k := Text.IndexOf(s, '.');
    if k == 0 || !AllDigits(s[..k]) then None
    else if k == |s| then Some(DigitsValue(s[..k]) as real)
    else if AllDigits(s[k + 1..]) then Some(DigitsValue(s[..k]) as real + FractionValue(s[k + 1..]))
    else None
  }

  /** JavaScript's `Number`/`parseFloat` on a plain decimal literal with an optional minus sign. */
  function ParseNumber(s: string): (r: Option<real>)
    ensures r.Some? && r.value < 0.0 ==> |s| > 0 && s[0] == '-'
  {
    if |s| > 0 && s[0] == '-' then
      match ParseUnsigned(s[1..])
      case None => None
      case Some(v) => Some(-v)
    else ParseUnsigned(s)
  }

  /** The strict reading of a captured token after `replace(',', '.')`. On every token the
      receipt patterns capture it is what `parseFloat(token.replace(',', '.'))` gives
      (`CapturedTokenReading`). */
  function ReadLiteral(s: string): Option<real> {
    ParseNumber(Text.ReplaceFirst(s, ',', '.'))
  }

  /** Leading digits of `s` from position `i`: the first non-digit position at or after `i`. */
  function DigitRun(s: string, i: nat): (j: nat)
    requires i <= |s|
    ensures i <= j <= |s|
    ensures forall k :: i <= k < j ==> IsDigit(s[k])
    ensures j < |s| ==> !IsDigit(s[j])
    decreases |s| - i
  {
    if i == |s| || !IsDigit(s[i]) then i else DigitRun(s, i + 1)
  }

  /** The run found by `DigitRun` is all digits. */
  lemma DigitRunDigits(s: string, i: nat)
    requires i <= |s|
    ensures AllDigits(s[i..DigitRun(s, i)])
  {
    var j := DigitRun(s, i);
    assert forall k :: 0 <= k < j - i ==> s[i..j][k] == s[i + k];
  }

  /** A token captured by `\d+[.,]\d{2}`: a price or total. */
  predicate IsAmountLiteral(s: string) {
    && |s| >= 4
    && AllDigits(s[..|s| - 3])
    && IsSeparator(s[|s| - 3])
    && AllDigits(s[|s| - 2..])
  }

  /** A token captured by `-?\d+[.,]\d{2}`: a discount, possibly signed. */
  predicate IsSignedAmountLiteral(s: string) {
    IsAmountLiteral(s) || (|s| >= 1 && s[0] == '-' && IsAmountLiteral(s[1..]))
  }

  /** A token captured by `\d+[.,]?\d*`: a quantity. */
  predicate IsQuantityLiteral(s: string) {
    var k := DigitRun(s, 0);
    k >= 1 && (k == |s| || (IsSeparator(s[k]) && AllDigits(s[k + 1..])))
  }

  type AmountToken = s: string | IsAmountLiteral(s) witness "0.00"
  type SignedAmountToken = s: string | IsSignedAmountLiteral(s) witness "0.00"
  type QuantityToken = s: string | IsQuantityLiteral(s) witness "1"

  /** Digits, then optionally a separator and more digits, read with either separator as a
      decimal point: the value is the integer part plus the fraction part. */
  lemma ReadDecimal(s: string, k: nat)
    requires 1 <= k <= |s| && AllDigits(s[..k])
    requires k < |s| ==> IsSeparator(s[k]) && AllDigits(s[k + 1..])
    ensures ReadLiteral(s) == Some(DigitsValue(s[..k]) as real + (if k < |s| then FractionValue(s[k + 1..]) else 0.0))
  {
    var u := Text.ReplaceFirst(s, ',', '.');
    DotSeparator(s, k);
    assert u[..k] == s[..k] && (k < |s| ==> u[k + 1..] == s[k + 1..]);
    ReadDotted(u, k);
  }

  /** Replacing the first comma turns the separator at `k`, if any, into a point and changes
      nothing else: the digits on either side of it contain no comma. */
  lemma DotSeparator(s: string, k: nat)
    requires 1 <= k <= |s| && AllDigits(s[..k])
    requires k < |s| ==> IsSeparator(s[k]) && AllDigits(s[k + 1..])
    ensures var u := Text.ReplaceFirst(s, ',', '.');
      && u[..k] == s[..k]
      && (k < |s| ==> u[k] == '.' && u[k + 1..] == s[k + 1..])
  {
    assert forall i :: 0 <= i < k ==> s[i] == s[..k][i];
    if k < |s| && s[k] == ',' {
      Text.IndexOfFirst(s, ',', k);
    } else {
      Text.IndexOfAbsent(s, ',');
    }
  }

  /** Digits, then optionally a point and more digits, read as a strict literal. */
  lemma ReadDotted(u: string, k: nat)
    requires 1 <= k <= |u| && AllDigits(u[..k])
    requires k < |u| ==> u[k] == '.' && AllDigits(u[k + 1..])
    ensures ParseNumber(u) == Some(DigitsValue(u[..k]) as real + (if k < |u| then FractionValue(u[k + 1..]) else 0.0))
  {
    assert forall i :: 0 <= i < k ==> u[i] == u[..k][i];
    if k < |u| {
      Text.IndexOfFirst(u, '.', k);
    } else {
      Text.IndexOfAbsent(u, '.');
      assert u[..k] == u;
    }
    assert IsDigit(u[0]);
  }

  /** The value of a price or total token. */
  function AmountValue(t: AmountToken): (v: real)
    ensures v >= 0.0
  {
    ReadDecimal(t, |t| - 3);
    ReadLiteral(t).value
  }

  /** A price or total token denotes its integer digits plus its two decimals as hundredths,
      whichever separator it uses. */
  lemma AmountDigits(t: AmountToken)
    ensures AmountValue(t) == DigitsValue(t[..|t| - 3]) as real + DigitsValue(t[|t| - 2..]) as real / 100.0
  {
    ReadDecimal(t, |t| - 3);
    Hundredths(t[|t| - 2..]);
  }

  /** Two decimals are hundredths. */
  lemma Hundredths(ds: string)
    requires |ds| == 2 && AllDigits(ds)
    ensures FractionValue(ds) == DigitsValue(ds) as real / 100.0
  {
    assert Shift(DigitsValue(ds) as real, 1) == DigitsValue(ds) as real / 10.0;
  }

  /** The unsigned part of a discount token. */
  function Magnitude(t: SignedAmountToken): (u: AmountToken)
    ensures u == t || (t[0] == '-' && u == t[1..])
  {
    if IsAmountLiteral(t) then t else t[1..]
  }

  /** A discount token reads as its unsigned part, negated exactly when it carries a minus sign. */
  lemma ReadSigned(t: SignedAmountToken)
    ensures t[0] != '-' ==> ReadLiteral(t) == Some(AmountValue(Magnitude(t)))
    ensures t[0] == '-' ==> ReadLiteral(t) == Some(-AmountValue(Magnitude(t)))
  {
    if IsAmountLiteral(t) {
      ReadUnsigned(t);
    } else {
      ReadSignedMinus(t);
    }
  }

  /** The unsigned case of ReadSigned. */
  lemma ReadUnsigned(t: SignedAmountToken)
    requires IsAmountLiteral(t)
    ensures t[0] != '-' && ReadLiteral(t) == Some(AmountValue(Magnitude(t)))
  {
    ReadPlain(t);
  }

  /** The minus-sign case of ReadSigned. */
  lemma ReadSignedMinus(t: SignedAmountToken)
    requires !IsAmountLiteral(t)
    ensures t[0] == '-'
    ensures ReadLiteral(t) == Some(-AmountValue(Magnitude(t)))
  {
    MinusTail(t);
    MinusReading(t, Magnitude(t), ReadLiteral(t));
  }

  /** ReadMinus, restated for a reading `r` of `t` named by the caller. */
  lemma MinusReading(t: string, u: AmountToken, r: Option<real>)
    requires t == ['-'] + u && r == ReadLiteral(t)
    ensures t[0] == '-' && r == Some(-AmountValue(u))
  {
    ReadMinus(t, u);
  }

  /** A signed token that is not a plain amount is a minus sign before its magnitude. */
  lemma MinusTail(t: SignedAmountToken)
    requires !IsAmountLiteral(t)
    ensures t == ['-'] + Magnitude(t)
  {
  }

  /** A price token starts with a digit and reads as its value. */
  lemma ReadPlain(u: AmountToken)
    ensures u[0] != '-' && ReadLiteral(u) == Some(AmountValue(u))
  {
    ReadDecimal(u, |u| - 3);
    assert u[..|u| - 3][0] == u[0];
  }

  /** A minus sign in front of a price token negates its value. */
  lemma ReadMinus(t: string, u: AmountToken)
    requires t == ['-'] + u
    ensures ReadLiteral(t) == Some(-AmountValue(u))
  {
    ReadPlain(u);
    assert IsDigit(u[0]) by {
      assert u[..|u| - 3][0] == u[0];
    }
    ReadNegated(u);
  }

  /** A minus sign in front of a literal that starts with a digit negates its reading. */
  lemma ReadNegated(u: string)
    requires |u| > 0 && IsDigit(u[0])
    ensures ReadLiteral(['-'] + u) == match ReadLiteral(u) case None => None case Some(v) => Some(-v)
  {
    var ru := Text.ReplaceFirst(u, ',', '.');
    Text.ReplaceFirstCons('-', u, ',', '.');
    assert ru[0] == u[0] || Text.IndexOf(u, ',') == 0;
    assert (['-'] + ru)[1..] == ru;
  }

  /** The value of a quantity token. */
  function QuantityValue(t: QuantityToken): (v: real)
    ensures v >= 0.0
  {
    QuantityDigits(t, DigitRun(t, 0));
    ReadLiteral(t).value
  }

  /** A quantity token denotes its leading digits plus, after a separator, its decimals. */
  lemma QuantityDigits(t: QuantityToken, k: nat)
    requires k == DigitRun(t, 0)
    ensures ReadLiteral(t) == Some(DigitsValue(t[..k]) as real + (if k < |t| then FractionValue(t[k + 1..]) else 0.0))
  {
    assert AllDigits(t[..k]) by {
      DigitRunDigits(t, 0);
      assert t[0..k] == t[..k];
    }
    ReadDecimal(t, k);
  }

  function DigitChar(d: nat): (c: char)
    requires d < 10
    ensures IsDigit(c) && DigitValue(c) == d
  {
    ('0' as int + d) as char
  }

  /** Decimal rendering of a natural number; reading its digits gives the number back. */
  function ShowNat(n: nat): (s: string)
    ensures |s| >= 1 && AllDigits(s)
    ensures DigitsValue(s) == n
  {
    if n < 10 then [DigitChar(n)]
    else
      var s := ShowNat(n / 10) + [DigitChar(n % 10)];
      assert s[..|s| - 1] == ShowNat(n / 10);
      s
  }

  /** A rendered natural number reads back as itself. */
  lemma ParseShowNat(n: nat)
    ensures ParseNumber(ShowNat(n)) == Some(n as real)
  {
    var s := ShowNat(n);
    Text.IndexOfAbsent(s, '.');
    assert s[..|s|] == s;
  }

  /** A cent amount rendered as a two-decimal literal with either separator, as a receipt prints
      it; reading it back gives the amount in whole currency units. */
  function ShowCents(c: nat, sep: char): (s: string)
    requires IsSeparator(sep)
    ensures IsAmountLiteral(s)
    ensures AmountValue(s) == c as real / 100.0
  {
    var whole := ShowNat(c / 100);
    var d1 := DigitChar((c % 100) / 10);
    var d2 := DigitChar(c % 10);
    var s := whole + [sep, d1, d2];
    assert s[..|s| - 3] == whole;
    assert s[|s| - 2..] == [d1, d2];
    assert [d1, d2][..1] == [d1];
    assert [d1][..0] == [];
    assert DigitsValue([d1]) == DigitValue(d1);
    assert DigitsValue([d1, d2]) == c % 100;
    assert c == 100 * (c / 100) + c % 100;
    AmountDigits(s);
    s
  }

  /** A number read from the start of a string: where the reading stopped, and its value. */
  datatype Scan = Scan(end: nat, value: real)

  /** The longest run of the form `\d+(\.\d*)?|\.\d+` starting at `p`, or None when there is no
      digit on either side of an optional point. */
  function ScanMagnitude(t: string, p: nat): (r: Option<Scan>)
    requires p <= |t|
    ensures r.Some? ==> p < r.value.end <= |t| && r.value.value >= 0.0
    ensures r.Some? && r.value.end < |t| ==> !IsDigit(t[r.value.end])
    ensures r.None? ==> p == |t| || !IsDigit(t[p])
  {
    var d1 := DigitRun(t, p);
    var d2 := if d1 < |t| && t[d1] == '.' then DigitRun(t, d1 + 1) else d1;
    if d1 == p && d2 <= d1 + 1 then None
    else
      DigitRunDigits(t, p);
      if d2 > d1 then DigitRunDigits(t, d1 + 1); Some(Scan(d2, DigitsValue(t[p..d1]) as real + FractionValue(t[d1 + 1..d2])))
      else Some(Scan(d2, DigitsValue(t[p..d1]) as real))
  }

  /** The longest prefix of `t` of the form `[+-]?(\d+(\.\d*)?|\.\d+)`, read as a number. */
  function ScanDecimal(t: string): (r: Option<Scan>)
    ensures r.Some? ==> 1 <= r.value.end <= |t|
    ensures r.Some? && r.value.value < 0.0 ==> t[0] == '-'
  {
    if |t| > 0 && (t[0] == '-' || t[0] == '+') then
      match ScanMagnitude(t, 1)
      case None => None
      case Some(sc) => Some(if t[0] == '-' then Scan(sc.end, -sc.value) else sc)
    else ScanMagnitude(t, 0)
  }

  /** JavaScript's `parseFloat`: leading whitespace is skipped, the longest prefix that reads as
      a decimal number is read, and whatever follows it is ignored. */
  function ParseFloat(s: string): (r: Option<real>)
    ensures r.Some? && r.value < 0.0 ==> '-' in s
  {
    var i := Text.ContentStart(s, 0);
    match ScanDecimal(s[i..])
    case None => None
    case Some(sc) => Some(sc.value)
  }

  /** JavaScript's `Number` on a string: surrounding whitespace is ignored, blank text is 0, and
      otherwise the whole of what remains must read as a decimal number. */
  function NumberOf(s: string): (r: Option<real>)
    ensures Text.AllSpace(s) ==> r == Some(0.0)
    ensures r.Some? && r.value < 0.0 ==> '-' in s
  {
    var t := Text.Trim(s);
    if t == [] then Some(0.0)
    else
      match ScanDecimal(t)
      case None => None
      case Some(sc) => if sc.end == |t| then Some(sc.value) else None
  }

  /** A digit run from `i` ends where the digits stop. */
  lemma {:induction false} DigitRunTo(t: string, i: nat, j: nat)
    requires i <= j <= |t| && AllDigits(t[i..j])
    requires j == |t| || !IsDigit(t[j])
    ensures DigitRun(t, i) == j
    decreases j - i
  {
    if i < j {
      assert t[i] == t[i..j][0];
      assert t[i + 1..j] == t[i..j][1..];
      DigitRunTo(t, i + 1, j);
    }
  }

  /** Where the strict unsigned grammar reads `t[p..]`, the scan reads all of it to the same value. */
  lemma ScanReadsUnsigned(t: string, p: nat)
    requires p <= |t| && ParseUnsigned(t[p..]).Some?
    ensures ScanMagnitude(t, p) == Some(Scan(|t|, ParseUnsigned(t[p..]).value))
  {
    var u := t[p..];
    var k := Text.IndexOf(u, '.');
    assert t[p..p + k] == u[..k];
    if k == |u| {
      DigitRunTo(t, p, |t|);
    } else {
      ScanReadsFraction(t, p, k);
    }
  }

  lemma ScanReadsFraction(t: string, p: nat, k: nat)
    requires p + k < |t| && k == Text.IndexOf(t[p..], '.')
    requires ParseUnsigned(t[p..]).Some?
    ensures ScanMagnitude(t, p) == Some(Scan(|t|, ParseUnsigned(t[p..]).value))
  {
    UnsignedAt(t, p, k);
    ScanAt(t, p, k);
  }

  /** The scan from `p` over digits, a point at `p + k` and digits to the end reads them all. */
  lemma ScanAt(t: string, p: nat, k: nat)
    requires 1 <= k && p + k < |t| && t[p + k] == '.'
    requires AllDigits(t[p..p + k]) && AllDigits(t[p + k + 1..|t|])
    ensures ScanMagnitude(t, p) == Some(Scan(|t|, DigitsValue(t[p..p + k]) as real + FractionValue(t[p + k + 1..|t|])))
  {
    DigitRunTo(t, p, p + k);
    DigitRunTo(t, p + k + 1, |t|);
    ScanPointed(t, p, p + k, |t|);
  }

  /** The strict reading of a suffix with a point, in terms of the whole string's slices. */
  lemma UnsignedAt(t: string, p: nat, k: nat)
    requires p + k < |t| && k == Text.IndexOf(t[p..], '.')
    requires ParseUnsigned(t[p..]).Some?
    ensures 1 <= k && t[p + k] == '.'
    ensures AllDigits(t[p..p + k]) && AllDigits(t[p + k + 1..|t|])
    ensures ParseUnsigned(t[p..]).value == DigitsValue(t[p..p + k]) as real + FractionValue(t[p + k + 1..|t|])
  {
    var u := t[p..];
    var whole, frac := t[p..p + k], t[p + k + 1..|t|];
    assert u[..k] == whole && u[k + 1..] == frac && t[p + k] == '.' by {
      SliceOfSlice(t, p, 0, k);
      SliceOfSlice(t, p, k + 1, |u|);
      assert u[..k] == u[0..k] && u[k + 1..] == u[k + 1..|u|];
      assert t[p + k] == u[k];
    }
    UnsignedParts(u, k);
    assert DigitsValue(u[..k]) == DigitsValue(whole);
    assert FractionValue(u[k + 1..]) == FractionValue(frac);
  }

  /** Where the scan meets a point after some digits, it reads the digits on both sides. */
  lemma ScanPointed(t: string, p: nat, d1: nat, d2: nat)
    requires p < d1 < |t| && t[d1] == '.'
    requires d1 == DigitRun(t, p) && d2 == DigitRun(t, d1 + 1)
    requires AllDigits(t[p..d1]) && AllDigits(t[d1 + 1..d2])
    ensures ScanMagnitude(t, p) == Some(Scan(d2, DigitsValue(t[p..d1]) as real + FractionValue(t[d1 + 1..d2])))
  {
  }

  /** What the strict unsigned grammar accepts: digits, then optionally a point and digits. */
  lemma UnsignedParts(u: string, k: nat)
    requires ParseUnsigned(u).Some? && k == Text.IndexOf(u, '.')
    ensures 1 <= k && AllDigits(u[..k])
    ensures k == |u| ==> ParseUnsigned(u).value == DigitsValue(u[..k]) as real
    ensures k < |u| ==> u[k] == '.' && AllDigits(u[k + 1..])
    ensures k < |u| ==> ParseUnsigned(u).value == DigitsValue(u[..k]) as real + FractionValue(u[k + 1..])
  {
  }

  /** A slice of a suffix is a slice of the whole. */
  lemma SliceOfSlice(t: string, p: nat, a: nat, b: nat)
    requires a <= b && p + b <= |t|
    ensures t[p..][a..b] == t[p + a..p + b]
  {
  }

  /** A strict unsigned literal starts with a digit and ends with a digit or a point. */
  lemma UnsignedShape(u: string)
    requires ParseUnsigned(u).Some?
    ensures |u| > 0 && IsDigit(u[0])
    ensures IsDigit(u[|u| - 1]) || u[|u| - 1] == '.'
  {
    var k := Text.IndexOf(u, '.');
    assert u[..k][0] == u[0];
    if k == |u| {
      assert u[..k][|u| - 1] == u[|u| - 1];
    } else if k + 1 < |u| {
      assert u[k + 1..][|u| - k - 2] == u[|u| - 1];
    }
  }

  lemma DigitNotSpace(c: char)
    requires IsDigit(c)
    ensures !Text.IsSpace(c)
  {
  }

  /** A strict literal is scanned whole, to its strict value. */
  lemma ScanReadsLiteral(s: string)
    requires ParseNumber(s).Some?
    ensures ScanDecimal(s) == Some(Scan(|s|, ParseNumber(s).value))
  {
    if |s| > 0 && s[0] == '-' {
      ScanReadsUnsigned(s, 1);
    } else {
      UnsignedShape(s);
      assert s[0..] == s;
      ScanReadsUnsigned(s, 0);
    }
  }

  /** A strict literal has no whitespace at either end. */
  lemma LiteralIsTrimmed(s: string)
    requires ParseNumber(s).Some?
    ensures |s| > 0 && Text.IsTrimmed(s)
  {
    var p := if |s| > 0 && s[0] == '-' then 1 else 0;
    var u := s[p..];
    UnsignedShape(u);
    assert u[0] == s[p] && u[|u| - 1] == s[|s| - 1];
    if p == 0 {
      DigitNotSpace(s[0]);
    }
    if IsDigit(s[|s| - 1]) {
      DigitNotSpace(s[|s| - 1]);
    }
  }

  /** On a literal of the strict grammar, `parseFloat` and `Number` both read the whole of it
      and agree with the strict reading, so the receipt code's `parseFloat` on a captured token
      is `ParseNumber`. */
  lemma FloatReadsLiterals(s: string)
    requires ParseNumber(s).Some?
    ensures ParseFloat(s) == ParseNumber(s)
    ensures NumberOf(s) == ParseNumber(s)
  {
    LiteralIsTrimmed(s);
    ScanReadsLiteral(s);
    assert Text.ContentStart(s, 0) == 0;
    assert s[0..] == s;
    Text.TrimPadded([], s, []);
    assert [] + s + [] == s;
  }

  /** `parseFloat` stops at the first character that cannot continue a number: a whole number
      followed by anything other than a digit, a point or an exponent mark reads as that whole
      number, so a comma decimal such as "12,50" reads as 12. */
  lemma ParseFloatStopsEarly(n: nat, rest: string)
    requires rest == [] || (!IsDigit(rest[0]) && rest[0] !in ".eE")
    ensures ParseFloat(ShowNat(n) + rest) == Some(n as real)
  {
    var d := ShowNat(n);
    var s := d + rest;
    assert s[0] == d[0];
    assert !Text.IsSpace(s[0]);
    assert s[0..] == s;
    assert s[0..|d|] == d;
    assert |d| < |s| ==> s[|d|] == rest[0];
    DigitRunTo(s, 0, |d|);
  }

  /** The receipt code's `parseFloat(token.replace(',', '.'))` on a captured price, discount or
      quantity token always gives a number, and it is the strict reading of the token. */
  lemma CapturedTokenReading(t: string)
    requires IsSignedAmountLiteral(t) || IsQuantityLiteral(t)
    ensures ReadLiteral(t).Some?
    ensures ParseFloat(Text.ReplaceFirst(t, ',', '.')) == ReadLiteral(t)
  {
    if IsSignedAmountLiteral(t) {
      ReadSigned(t);
    } else {
      QuantityDigits(t, DigitRun(t, 0));
    }
    FloatReadsLiterals(Text.ReplaceFirst(t, ',', '.'));
  }

  /** `parseFloat` ignores leading whitespace. */
  lemma ParseFloatSkipsSpace(pre: string, s: string)
    requires Text.AllSpace(pre)
    ensures ParseFloat(pre + s) == ParseFloat(s)
  {
    var x := pre + s;
    var k := Text.ContentStart(s, 0);
    assert Text.ContentStart(x, 0) == |pre| + k by {
      Text.ContentStartAfter(pre, s);
    }
    assert x[|pre| + k..] == s[k..];
  }

  /** `parseFloat` on text that, at its first non-space character, has no sign, digit or point
      (nor the `I` of `Infinity`) is not a number. */
  lemma ParseFloatRejects(s: string)
    requires s != [] && !Text.IsSpace(s[0]) && !IsDigit(s[0]) && s[0] !in "+-.I"
    ensures ParseFloat(s) == None
  {
    assert Text.ContentStart(s, 0) == 0;
    assert s[0..] == s;
  }

  /** `Number`, unlike `parseFloat`, needs the whole trimmed text to be one number: a whole number
      followed by text that is not blank and does not continue the number (with a digit, a point
      or an exponent) is not a number, so a comma decimal such as "1,5" is not a number. A zero
      followed by a radix mark ("0x10", "0o7", "0b1") is left out: `Number` reads those as
      hexadecimal, octal and binary integers, which this model does not. */
  lemma NumberRejectsTrailing(n: nat, rest: string)
    requires rest != [] && !IsDigit(rest[0]) && rest[0] !in ".eE"
    requires n != 0 || rest[0] !in "xXoObB"
    requires !Text.AllSpace(rest)
    ensures NumberOf(ShowNat(n) + rest) == None
  {
    var d := ShowNat(n);
    var s := d + rest;
    var t := Text.Trim(s);
    assert s[0] == d[0];
    DigitNotSpace(s[0]);
    assert Text.ContentStart(s, 0) == 0;
    var j :| 0 <= j < |rest| && !Text.IsSpace(rest[j]);
    assert s[|d| + j] == rest[j];
    assert |t| > |d| + j;
    assert t[0..|d|] == d by {
      assert t == s[0..|t|];
      assert forall i :: 0 <= i < |d| ==> t[i] == d[i];
    }
    assert t[|d|] == rest[0];
    DigitRunTo(t, 0, |d|);
  }

  /** `parseFloat` accepts a leading plus sign: "+" before a whole number reads as that number. */
  lemma ParseFloatPlusSign(n: nat)
    ensures ParseFloat("+" + ShowNat(n)) == Some(n as real)
  {
    var d := ShowNat(n);
    var s := "+" + d;
    assert Text.ContentStart(s, 0) == 0;
    assert s[0..] == s;
    assert s[1..] == d;
    assert s[1..|s|] == d;
    DigitRunTo(s, 1, |s|);
  }

  /** `parseFloat` reads a fraction with no integer digits: ".5" is one half. */
  lemma ParseFloatLeadingPoint()
    ensures ParseFloat(".5") == Some(0.5)
  {
    DigitRunTo(".5", 0, 0);
    DigitRunTo(".5", 1, 2);
    assert Shift(5.0, 1) == Shift(5.0, 0) / 10.0;
  }

  /** `Number` ignores the whitespace around a number: " 2 " is two. */
  lemma NumberIgnoresPadding()
    ensures NumberOf(" 2 ") == Some(2.0)
  {
  }
}

=== FILE: ledger_events.dfy ===
/** The ledger under any sequence of the pages' handlers: manual additions, deletions and
    settlements on the debts page, and receipt confirmations on the receipt page. */
module LedgerEvents {
  import opened Results
  import opened ReceiptParser
  import opened DebtLedger
  import Selection

  /** One user action that changes the ledger, with what the dialogs returned. */
  datatype Op =
    | AddOp(person: Party, input: Option<string>, date: string)
    | DeleteOp(person: Party, index: int, confirmed: bool)
    | ResetOp(person: Party, date: string)
    | ConfirmOp(payer: Party, items: seq<Item>, checked: seq<bool>, declared: real, date: string)

  /** The ledger after one action; a refused settlement or confirmation (an alert) changes nothing. */
  function Apply(l: Ledger, op: Op): (r: Ledger)
    ensures |l.history| <= |r.history| && r.history[..|l.history|] == l.history
    ensures Valid(l) && Reachable(op) ==> Valid(r)
  {
    match op
    case AddOp(p, input, date) => AddDebt(l, p, input, date)
    case DeleteOp(p, index, confirmed) => DeleteDebt(l, p, index, confirmed)
    case ResetOp(p, date) =>
      (match ResetDebts(l, p, date) case Ok(r) => r case Err(_) => l)
    case ConfirmOp(payer, items, checked, declared, date) =>
      (match Selection.Confirm(l, payer, items, checked, declared, date) case Ok(r) => r case Err(_) => l)
  }

  /** The actions in order. */
  function Replay(l: Ledger, ops: seq<Op>): Ledger
    decreases |ops|
  {
    if ops == [] then l else Replay(Apply(l, ops[0]), ops[1..])
  }

  /** A confirmation works on items the receipt page can hold: parsed, with accepted fractions. */
  predicate Reachable(op: Op) {
    op.ConfirmOp? ==> Selection.ValidItems(op.items)
  }

  /** Whatever the pages do, every debt stays positive and every settlement a positive transfer
      between the two people. */
  lemma {:induction false} ReplayKeepsValid(l: Ledger, ops: seq<Op>)
    requires Valid(l)
    requires forall i :: 0 <= i < |ops| ==> Reachable(ops[i])
    ensures Valid(Replay(l, ops))
    decreases |ops|
  {
    if ops != [] {
      assert forall i :: 0 <= i < |ops| - 1 ==> ops[1..][i] == ops[i + 1];
      ReplayKeepsValid(Apply(l, ops[0]), ops[1..]);
    }
  }

  /** The settlement history is append-only: no action rewrites or drops a past settlement. */
  lemma {:induction false} HistoryAppendOnly(l: Ledger, ops: seq<Op>)
    ensures var r := Replay(l, ops);
      |l.history| <= |r.history| && r.history[..|l.history|] == l.history
    decreases |ops|
  {
    if ops != [] {
      var m := Apply(l, ops[0]);
      HistoryAppendOnly(m, ops[1..]);
      var r := Replay(l, ops);
      assert r.history[..|l.history|] == r.history[..|m.history|][..|l.history|];
    }
  }

  /** The receipt page only confirms parsed items, possibly after a fraction edit: such a
      confirmation is reachable, so it keeps a valid ledger valid. */
  lemma ParsedReceiptReachable(l: Ledger, st: State, idx: nat, input: Option<string>,
                               payer: Party, checked: seq<bool>, date: string)
    requires Valid(l) && Inv(st) && idx < |st.items|
    ensures var op := ConfirmOp(payer, st.items, checked, st.declared, date);
      Reachable(op) && Valid(Apply(l, op))
    ensures var e := Selection.SetFraction(st.items, idx, input);
      e.Accepted? ==>
        var op := ConfirmOp(payer, e.items, checked, st.declared, date);
        Reachable(op) && Valid(Apply(l, op))
  {
    Selection.ParsedItemsValid(st);
    Selection.SetFractionKeepsValid(st.items, idx, input);
  }
}

=== FILE: receipt_parser.dfy ===
/** The receipt line parser and discount reconciler: the fold over the trimmed OCR lines of a
    receipt that builds the ordered item list and the declared total, threading one piece of
    parser state (the items, the declared total and the most recently created item). */
module ReceiptParser {
  import opened Results

  /** A non-negative amount of money, as every unsigned literal the receipt patterns capture reads. */
  type Amount = x: real | x >= 0.0

  /** `Math.max(x, 0)`. */
  function AtLeastZero(x: real): (r: real)
    ensures r >= 0.0 && r >= x
    ensures r == x || r == 0.0
  {
    if x > 0.0 then x else 0.0
  }

  /** A detected receipt item. `price` is the gross price, `discount` the accumulated
      discounts, `finalPrice` the net price and `fraction` the share of the net price
      attributed to the other person. */
  datatype Item = Item(name: string, price: real, discount: real, finalPrice: real, fraction: real)

  /** The price invariant: the net price is the gross price less all discounts, floored at zero. */
  predicate Reconciled(it: Item) {
    && it.price >= 0.0
    && it.discount >= 0.0
    && it.finalPrice == AtLeastZero(it.price - it.discount)
  }

  /** A reconciled item's net price lies between zero and its gross price. */
  lemma ReconciledBounds(it: Item)
    requires Reconciled(it)
    ensures 0.0 <= it.finalPrice <= it.price
  {
  }

  /** A freshly detected item: no discount yet, the whole price attributed, net equal to gross. */
  function NewItem(name: string, price: real): (it: Item)
    requires price >= 0.0
    ensures Reconciled(it)
  {
    Item(name, price, 0.0, price, 1.0)
  }

  /** Folds one discount amount into an item: the discount accumulates and the net price drops
      by the amount, but never below zero. */
  function ApplyDiscount(it: Item, amount: real): (r: Item)
    requires amount >= 0.0
    ensures Reconciled(it) ==> Reconciled(r)
    ensures r.discount == it.discount + amount
    ensures r.name == it.name && r.price == it.price && r.fraction == it.fraction
    ensures it.finalPrice >= 0.0 ==> 0.0 <= r.finalPrice <= it.finalPrice
  {
    it.(discount := it.discount + amount, finalPrice := AtLeastZero(it.finalPrice - amount))
  }

  /** A quantity line `<name> <qty> x <unit price>`, read: trimmed name, quantity, unit price. */
  datatype QuantityForm = QuantityForm(name: string, quantity: Amount, unit: Amount)

  /** A simple priced line `<name> <price>[<code letter>]`, read: trimmed name and price. */
  datatype PriceForm = PriceForm(name: string, price: Amount)

  /** What the receipt patterns find on one trimmed OCR line, with captured literals read as numbers. */
  datatype Line = Line(
    noise: bool,                        // the vendor-boilerplate pattern matches
    totalLabel: bool,                   // a total label matches
    totalAmount: Option<Amount>,        // the first two-decimal amount on the line
    discountLabel: bool,                // a discount phrase matches
    discountAmount: Option<real>,       // the first, possibly signed, two-decimal amount
    quantityForm: Option<QuantityForm>, // the quantity pattern, if it matches
    priceForm: Option<PriceForm>)       // the simple item pattern, if it matches

  /** The classes a line falls into, in the order they are tried. */
  datatype Kind =
    | Noise
    | Total(total: Option<Amount>)
    | Discount(discount: Option<real>)
    | Quantity(quantity: QuantityForm)
    | Priced(priced: PriceForm)
    | Unrecognized

  /** The priority order: noise, total, discount, quantity item, simple item, otherwise skipped. */
  function Classify(line: Line): (k: Kind)
    ensures k.Noise? <==> line.noise
    ensures k.Total? <==> !line.noise && line.totalLabel
    ensures k.Total? ==> k.total == line.totalAmount
    ensures k.Discount? <==> !line.noise && !line.totalLabel && line.discountLabel
    ensures k.Discount? ==> k.discount == line.discountAmount
    ensures k.Quantity? <==> !line.noise && !line.totalLabel && !line.discountLabel && line.quantityForm.Some?
    ensures k.Quantity? ==> line.quantityForm == Some(k.quantity)
    ensures k.Priced? <==>
      !line.noise && !line.totalLabel && !line.discountLabel && line.quantityForm.None? && line.priceForm.Some?
    ensures k.Priced? ==> line.priceForm == Some(k.priced)
  {
    if line.noise then Noise
    else if line.totalLabel then Total(line.totalAmount)
    else if line.discountLabel then Discount(line.discountAmount)
    else if line.quantityForm.Some? then Quantity(line.quantityForm.value)
    else if line.priceForm.Some? then Priced(line.priceForm.value)
    else Unrecognized
  }

  /** The item a quantity line describes: its price is quantity times unit price. */
  function QuantityItem(q: QuantityForm): (it: Item)
    ensures Reconciled(it) && it.discount == 0.0 && it.fraction == 1.0
    ensures it.name == q.name && it.price == q.quantity * q.unit
  {
    ProductNonNegative(q.quantity, q.unit);
    NewItem(q.name, q.quantity * q.unit)
  }

  lemma ProductNonNegative(x: real, y: real)
    requires x >= 0.0 && y >= 0.0
    ensures x * y >= 0.0
  {
  }

  /** The item a simple priced line describes. */
  function PricedItem(p: PriceForm): (it: Item)
    ensures Reconciled(it) && it.discount == 0.0 && it.fraction == 1.0
    ensures it.name == p.name && it.price == p.price
  {
    NewItem(p.name, p.price)
  }

  /** The item a line creates, whatever state it is read in; none for noise, totals,
      discounts, unrecognised lines and simple items priced at zero. */
  function Draft(line: Line): (r: Option<Item>)
    ensures r.Some? ==> !line.noise && !line.totalLabel && !line.discountLabel
    ensures r.Some? ==> Reconciled(r.value) && r.value.discount == 0.0 && r.value.fraction == 1.0
    ensures r.Some? ==> r.value.finalPrice == r.value.price
    ensures line.quantityForm.Some? && r.Some? ==> r.value == QuantityItem(line.quantityForm.value)
    ensures !line.noise && !line.totalLabel && !line.discountLabel && line.quantityForm.Some? ==> r.Some?
    ensures line.quantityForm.None? && r.Some? ==> r.value.price > 0.0
    ensures !line.noise && !line.totalLabel && !line.discountLabel && line.quantityForm.None? && line.priceForm.Some? ==>
      && (r.Some? <==> line.priceForm.value.price > 0.0)
      && (r.Some? ==> r.value == PricedItem(line.priceForm.value))
    ensures line.quantityForm.None? && line.priceForm.None? ==> r.None?
  {
    match Classify(line)
    case Quantity(q) => Some(QuantityItem(q))
    case Priced(p) => if p.price > 0.0 then Some(PricedItem(p)) else None
    case _ => None
  }

  /** A line the parser passes over without any change of state. */
  predicate Skipped(line: Line) {
    || line.noise
    || (line.totalLabel && line.totalAmount.None?)
    || (!line.totalLabel && line.discountLabel && line.discountAmount.None?)
    || (!line.totalLabel && !line.discountLabel && Draft(line).None?)
  }

  /** The parser context: items in receipt order, the declared total (0 when absent) and the
      position of the most recently created item, if any. */
  datatype State = State(items: seq<Item>, declared: real, last: Option<nat>)

  /** The last-item reference points into the item list. */
  predicate WellFormed(st: State) {
    st.last.Some? ==> st.last.value < |st.items|
  }

  /** What parsing maintains: every item is reconciled and fully attributed, the declared total
      is not negative, and the last-item reference is absent exactly when there are no items and
      otherwise designates the final item. */
  predicate Inv(st: State) {
    && st.declared >= 0.0
    && (forall i :: 0 <= i < |st.items| ==> Reconciled(st.items[i]) && st.items[i].fraction == 1.0)
    && (if st.items == [] then st.last == None else st.last == Some(|st.items| - 1))
  }

  /** The state at the start of each receipt upload. */
  function Start(): (st: State)
    ensures Inv(st) && WellFormed(st)
    ensures st.items == [] && st.declared == 0.0
  {
    State([], 0.0, None)
  }

  /** A total line sets the declared total to the line's amount; without an amount it is skipped. */
  function OnTotal(st: State, amount: Option<Amount>): (r: State)
    ensures r.items == st.items && r.last == st.last
    ensures amount.Some? ==> r.declared == amount.value
    ensures amount.None? ==> r == st
  {
    match amount
    case None => st
    case Some(a) => st.(declared := a)
  }

  /** A discount line folds its unsigned amount into the most recent item only; with no amount
      or no item yet it is dropped. */
  function OnDiscount(st: State, amount: Option<real>): (r: State)
    requires WellFormed(st)
    ensures |r.items| == |st.items| && r.last == st.last && r.declared == st.declared
    ensures forall i :: 0 <= i < |st.items| && st.last != Some(i) ==> r.items[i] == st.items[i]
    ensures amount.None? || st.last.None? ==> r == st
    ensures amount.Some? && st.last.Some? ==>
      r.items[st.last.value] == ApplyDiscount(st.items[st.last.value], Abs(amount.value))
  {
    match (amount, st.last)
    case (Some(a), Some(k)) =>
      st.(items := st.items[k := ApplyDiscount(st.items[k], Abs(a))])
    case _ => st
  }

  /** `Math.abs`. */
  function Abs(x: real): (r: real)
    ensures r >= 0.0 && (r == x || r == -x)
  {
    if x < 0.0 then -x else x
  }

  /** Appends a new item and makes it the most recent one. */
  function Push(st: State, it: Item): (r: State)
    ensures r.items == st.items + [it] && r.last == Some(|st.items|) && r.declared == st.declared
  {
    st.(items := st.items + [it], last := Some(|st.items|))
  }

  /** One line of the fold. */
  function Step(st: State, line: Line): (r: State)
    requires WellFormed(st)
    ensures WellFormed(r)
    ensures Inv(st) ==> Inv(r)
    ensures Skipped(line) ==> r == st
    ensures Draft(line).Some? ==> r.items == st.items + [Draft(line).value] && r.last == Some(|st.items|)
    ensures Draft(line).None? ==> |r.items| == |st.items| && r.last == st.last
  {
    match Classify(line)
    case Noise => st
    case Total(a) => OnTotal(st, a)
    case Discount(a) => OnDiscount(st, a)
    case Quantity(q) => Push(st, QuantityItem(q))
    case Priced(p) => if p.price > 0.0 then Push(st, PricedItem(p)) else st
    case Unrecognized => st
  }

  /** Only a total line that carries an amount changes the declared total, and it sets it to
      that amount; a total line never creates or touches an item. */
  lemma StepDeclared(st: State, line: Line)
    requires WellFormed(st)
    ensures var r := Step(st, line);
      && (!line.noise && line.totalLabel ==> r.items == st.items && r.last == st.last)
      && (!line.noise && line.totalLabel && line.totalAmount.Some? ==>
            r.declared == line.totalAmount.value)
      && (line.noise || !line.totalLabel || line.totalAmount.None? ==> r.declared == st.declared)
  {
  }

  /** A line that creates no item changes at most the most recent item, and that one only in
      its discount and net price. */
  lemma StepKeepsOrigins(st: State, line: Line)
    requires WellFormed(st) && Draft(line).None?
    ensures var r := Step(st, line);
      && (forall i :: 0 <= i < |st.items| && st.last != Some(i) ==> r.items[i] == st.items[i])
      && (st.last.Some? ==> SameOrigin(r.items[st.last.value], st.items[st.last.value]))
  {
  }

  /** Two items describe the same receipt line: same name, gross price and share. */
  predicate SameOrigin(a: Item, b: Item) {
    a.name == b.name && a.price == b.price && a.fraction == b.fraction
  }

  /** The fold over the lines, in order. */
  function Run(st: State, lines: seq<Line>): (r: State)
    requires WellFormed(st)
    ensures WellFormed(r)
    ensures Inv(st) ==> Inv(r)
    decreases |lines|
  {
    if lines == [] then st else Run(Step(st, lines[0]), lines[1..])
  }

  /** Parses the lines of one receipt from the initial state. */
  function Parse(lines: seq<Line>): (r: State)
    ensures WellFormed(r) && Inv(r)
  {
    Run(Start(), lines)
  }

  /** The items the lines create, in line order, read line by line without any parser state. */
  function Drafts(lines: seq<Line>): seq<Item>
  {
    if lines == [] then []
    else (match Draft(lines[0]) case Some(it) => [it] case None => []) + Drafts(lines[1..])
  }

  /** The amount of the last total line that carries one, if any. */
  function LastDeclared(lines: seq<Line>): Option<real>
  {
    if lines == [] then None
    else
      var l := lines[|lines| - 1];
      if !l.noise && l.totalLabel && l.totalAmount.Some? then Some(l.totalAmount.value as real)
      else LastDeclared(lines[..|lines| - 1])
  }

  /** Parsing in two pieces is parsing the whole. */
  lemma {:induction false} RunAppend(st: State, a: seq<Line>, b: seq<Line>)
    requires WellFormed(st)
    ensures Run(st, a + b) == Run(Run(st, a), b)
    decreases |a|
  {
    if a == [] {
      assert a + b == b;
    } else {
      assert (a + b)[0] == a[0];
      assert (a + b)[1..] == a[1..] + b;
      RunAppend(Step(st, a[0]), a[1..], b);
    }
  }

  /** `r`'s items are `st`'s items followed by items of the same origin as `d`, with every
      item of `st` but the most recent one untouched and that one changed at most in its
      discount and net price. */
  predicate Extends(st: State, r: State, d: seq<Item>) {
    && |r.items| == |st.items| + |d|
    && (forall i :: 0 <= i < |st.items| ==> SameOrigin(r.items[i], st.items[i]))
    && (forall i :: 0 <= i < |st.items| - 1 ==> r.items[i] == st.items[i])
    && (forall j :: 0 <= j < |d| ==> SameOrigin(r.items[|st.items| + j], d[j]))
  }

  /** Items appear in line order: the fold keeps the items it started with (all but the most
      recent one untouched) and appends exactly the line-by-line drafts, changed at most in
      their discount and net price. */
  lemma {:induction false} RunDrafts(st: State, lines: seq<Line>)
    requires WellFormed(st) && Inv(st)
    ensures Extends(st, Run(st, lines), Drafts(lines))
    decreases |lines|
  {
    if lines != [] {
      var s1 := Step(st, lines[0]);
      var r := Run(s1, lines[1..]);
      var rest := Drafts(lines[1..]);
      assert r == Run(st, lines);
      RunDrafts(s1, lines[1..]);
      var draft := Draft(lines[0]);
      if draft.Some? {
        assert Drafts(lines) == [draft.value] + rest;
        PushKeepsOrigins(st, s1, r, draft.value, rest);
      } else {
        assert Drafts(lines) == rest;
        StepKeepsOrigins(st, lines[0]);
        NoDraftKeepsOrigins(st, s1, r, rest);
      }
    }
  }

  lemma PushKeepsOrigins(st: State, s1: State, r: State, it: Item, rest: seq<Item>)
    requires Inv(st) && s1.items == st.items + [it]
    requires Extends(s1, r, rest)
    ensures Extends(st, r, [it] + rest)
  {
    var d := [it] + rest;
    assert SameOrigin(r.items[|st.items|], it);
    forall j | 1 <= j < |d|
      ensures SameOrigin(r.items[|st.items| + j], d[j])
    {
      assert d[j] == rest[j - 1];
      assert r.items[|st.items| + j] == r.items[|s1.items| + (j - 1)];
    }
  }

  lemma NoDraftKeepsOrigins(st: State, s1: State, r: State, rest: seq<Item>)
    requires Inv(st) && |s1.items| == |st.items| && s1.last == st.last
    requires forall i :: 0 <= i < |st.items| && st.last != Some(i) ==> s1.items[i] == st.items[i]
    requires st.last.Some? ==> SameOrigin(s1.items[st.last.value], st.items[st.last.value])
    requires Extends(s1, r, rest)
    ensures Extends(st, r, rest)
  {
  }

  /** The items of a parsed receipt are exactly the lines' drafts, in line order. */
  lemma ParseInLineOrder(lines: seq<Line>)
    ensures var items := Parse(lines).items; var d := Drafts(lines);
      |items| == |d| && forall i :: 0 <= i < |d| ==> SameOrigin(items[i], d[i])
  {
    var r := Parse(lines);
    var d := Drafts(lines);
    RunDrafts(Start(), lines);
    assert Extends(Start(), r, d);
    forall j | 0 <= j < |d|
      ensures SameOrigin(r.items[j], d[j])
    {
      assert r.items[|Start().items| + j] == r.items[j];
    }
  }

  /** A later total line overwrites an earlier one: the declared total is the amount of the
      last total line, or what it was before when there is none. */
  lemma {:induction false} RunDeclared(st: State, lines: seq<Line>)
    requires WellFormed(st)
    ensures Run(st, lines).declared ==
      match LastDeclared(lines) case None => st.declared case Some(v) => v
    decreases |lines|
  {
    if lines != [] {
      var init := lines[..|lines| - 1];
      var l := lines[|lines| - 1];
      assert lines == init + [l];
      RunAppend(st, init, [l]);
      RunDeclared(st, init);
    }
  }

  /** A skipped line, wherever it stands, leaves the outcome of parsing as if it were absent. */
  lemma SkippedLineIsTransparent(st: State, a: seq<Line>, line: Line, b: seq<Line>)
    requires WellFormed(st) && Skipped(line)
    ensures Run(st, a + [line] + b) == Run(st, a + b)
  {
    RunAppend(st, a + [line], b);
    RunAppend(st, a, [line]);
    RunAppend(st, a, b);
  }

  /** A discount line met before any item has been created is dropped: no phantom item, no
      change to anything parsed after it. */
  lemma OrphanDiscountDropped(a: seq<Line>, line: Line, b: seq<Line>)
    requires Drafts(a) == []
    requires !line.noise && !line.totalLabel && line.discountLabel
    ensures Parse(a + [line] + b) == Parse(a + b)
  {
    var s := Run(Start(), a);
    RunDrafts(Start(), a);
    assert s.items == [] && s.last == None;
    RunAppend(Start(), a + [line], b);
    RunAppend(Start(), a, [line]);
    RunAppend(Start(), a, b);
  }

  /** A line that carries a discount amount the parser applies. */
  predicate AppliedDiscount(line: Line) {
    !line.noise && !line.totalLabel && line.discountLabel && line.discountAmount.Some?
  }

  function DiscountAmounts(lines: seq<Line>): (ds: seq<real>)
    requires forall i :: 0 <= i < |lines| ==> AppliedDiscount(lines[i])
    ensures |ds| == |lines|
  {
    if lines == [] then []
    else
      assert AppliedDiscount(lines[0]);
      [Abs(lines[0].discountAmount.value)] + DiscountAmounts(lines[1..])
  }

  function Sum(xs: seq<real>): real {
    if xs == [] then 0.0 else xs[0] + Sum(xs[1..])
  }

  /** Successive discount lines accumulate into the most recent item alone: its discount grows
      by their total, its net price is the gross price less all its discounts floored at zero,
      and every other item, the declared total and the last-item reference stay as they were. */
  lemma {:induction false} DiscountsAccumulate(st: State, ds: seq<Line>)
    requires Inv(st) && st.items != []
    requires forall i :: 0 <= i < |ds| ==> AppliedDiscount(ds[i])
    ensures var n := |st.items|; var it := st.items[n - 1]; var total := Sum(DiscountAmounts(ds));
      && total >= 0.0
      && Run(st, ds) == st.(items := st.items[n - 1 := it.(
           discount := it.discount + total,
           finalPrice := AtLeastZero(it.price - it.discount - total))])
    decreases |ds|
  {
    if ds != [] {
      var n := |st.items|;
      var it := st.items[n - 1];
      var d := Abs(ds[0].discountAmount.value);
      var s1 := Step(st, ds[0]);
      assert s1 == st.(items := st.items[n - 1 := ApplyDiscount(it, d)]);
      DiscountsAccumulate(s1, ds[1..]);
      assert s1.items[n - 1 := s1.items[n - 1]] == s1.items;
    }
  }

  /** Sum of the net prices, accumulated in item order. */
  function NetSum(items: seq<Item>): (r: real)
    ensures (forall i :: 0 <= i < |items| ==> Reconciled(items[i])) ==> 0.0 <= r <= GrossSum(items)
  {
    if items == [] then 0.0 else NetSum(items[..|items| - 1]) + items[|items| - 1].finalPrice
  }

  /** Sum of the gross prices. */
  function GrossSum(items: seq<Item>): real {
    if items == [] then 0.0 else GrossSum(items[..|items| - 1]) + items[|items| - 1].price
  }

  /** The total shown for the receipt: the declared total when it is positive, otherwise the sum
      of the net prices, which then lies between zero and the gross sum. */
  function UsableTotal(st: State): (r: real)
    ensures st.declared > 0.0 ==> r == st.declared
    ensures Inv(st) ==> r >= 0.0
    ensures Inv(st) && st.declared <= 0.0 ==> r == NetSum(st.items) && r <= GrossSum(st.items)
  {
    if st.declared > 0.0 then st.declared else NetSum(st.items)
  }

  /** The upload handler's loop: steps through the lines in order, then computes the total shown. */
  method ParseReceipt(lines: seq<Line>) returns (st: State, shown: real)
    ensures st == Parse(lines)
    ensures Inv(st)
    ensures shown == UsableTotal(st) && shown >= 0.0
  {
    st := Start();
    var i := 0;
    while i < |lines|
      invariant 0 <= i <= |lines|
      invariant WellFormed(st)
      invariant st == Run(Start(), lines[..i])
    {
      RunAppend(Start(), lines[..i], [lines[i]]);
      assert lines[..i + 1] == lines[..i] + [lines[i]];
      st := Step(st, lines[i]);
      i := i + 1;
    }
    assert lines[..|lines|] == lines;
    if st.declared > 0.0 {
      shown := st.declared;
    } else {
      shown := SumFinalPrices(st.items);
    }
  }

  /** The `reduce` over the items' final prices, item by item. */
  method SumFinalPrices(items: seq<Item>) returns (sum: real)
    ensures sum == NetSum(items)
  {
    sum := 0.0;
    var j := 0;
    while j < |items|
      invariant 0 <= j <= |items|
      invariant sum == NetSum(items[..j])
    {
      assert items[..j + 1][..j] == items[..j];
      sum := sum + items[j].finalPrice;
      j := j + 1;
    }
    assert items[..|items|] == items;
  }
}

=== FILE: receipt_text.dfy ===
/** From OCR text to parsed receipt: the text is cleaned into non-empty trimmed lines, the
    receipt patterns' captures on each line are read into numbers, and the lines are parsed. */
module ReceiptText {
  import opened Results
  import Text
  import opened Decimal
  import opened ReceiptParser

  /** The captures of the quantity pattern: name, quantity and unit price literals. */
  datatype QuantityCaptures = QuantityCaptures(name: string, quantity: QuantityToken, unit: AmountToken)

  /** The captures of the simple priced-item pattern: name and price literal. */
  datatype PriceCaptures = PriceCaptures(name: string, price: AmountToken)

  /** What the receipt patterns capture on one line, as text. */
  datatype Captures = Captures(
    noise: bool,
    totalLabel: bool,
    totalAmount: Option<AmountToken>,
    discountLabel: bool,
    discountAmount: Option<SignedAmountToken>,
    quantity: Option<QuantityCaptures>,
    price: Option<PriceCaptures>)

  /** Reads a line's captures: names are trimmed, literals read with comma or dot alike,
      the discount keeps its sign (the parser takes its absolute value). */
  function ReadLine(c: Captures): (l: Line)
    ensures l.noise == c.noise && l.totalLabel == c.totalLabel && l.discountLabel == c.discountLabel
    ensures l.totalAmount.Some? <==> c.totalAmount.Some?
    ensures l.discountAmount.Some? <==> c.discountAmount.Some?
    ensures l.quantityForm.Some? <==> c.quantity.Some?
    ensures l.priceForm.Some? <==> c.price.Some?
    ensures c.totalAmount.Some? ==> l.totalAmount.value == AmountValue(c.totalAmount.value)
    ensures c.discountAmount.Some? ==>
      Abs(l.discountAmount.value) == AmountValue(Magnitude(c.discountAmount.value))
    ensures c.quantity.Some? ==>
      var q, f := c.quantity.value, l.quantityForm.value;
      && f.name == Text.Trim(q.name) && Text.IsTrimmed(f.name)
      && f.quantity == QuantityValue(q.quantity) && f.unit == AmountValue(q.unit)
    ensures c.price.Some? ==>
      var p, f := c.price.value, l.priceForm.value;
      f.name == Text.Trim(p.name) && Text.IsTrimmed(f.name) && f.price == AmountValue(p.price)
  {
    Line(
      c.noise,
      c.totalLabel,
      match c.totalAmount case None => None case Some(t) => Some(AmountValue(t)),
      c.discountLabel,
      match c.discountAmount case None => None case Some(t) => Some(SignedValue(t)),
      match c.quantity
        case None => None
        case Some(q) => Some(QuantityForm(Text.Trim(q.name), QuantityValue(q.quantity), AmountValue(q.unit))),
      match c.price
        case None => None
        case Some(p) => Some(PriceForm(Text.Trim(p.name), AmountValue(p.price))))
  }

  /** `token.replace(',', '.')`. */
  function Dotted(token: string): string {
    Text.ReplaceFirst(token, ',', '.')
  }

  /** Every number `ReadLine` produces is what the receipt code computes from the capture,
      `parseFloat(token.replace(',', '.'))`, and every name is the captured name trimmed. */
  lemma ReadLineAsWritten(c: Captures)
    ensures var l := ReadLine(c);
      && (c.totalAmount.Some? ==> Some(l.totalAmount.value) == ParseFloat(Dotted(c.totalAmount.value)))
      && (c.discountAmount.Some? ==> Some(l.discountAmount.value) == ParseFloat(Dotted(c.discountAmount.value)))
      && (c.quantity.Some? ==>
            && l.quantityForm.value.name == Text.Trim(c.quantity.value.name)
            && Some(l.quantityForm.value.quantity) == ParseFloat(Dotted(c.quantity.value.quantity))
            && Some(l.quantityForm.value.unit) == ParseFloat(Dotted(c.quantity.value.unit)))
      && (c.price.Some? ==>
            && l.priceForm.value.name == Text.Trim(c.price.value.name)
            && Some(l.priceForm.value.price) == ParseFloat(Dotted(c.price.value.price)))
  {
    if c.totalAmount.Some? {
      CapturedTokenReading(c.totalAmount.value);
    }
    if c.discountAmount.Some? {
      CapturedTokenReading(c.discountAmount.value);
    }
    if c.quantity.Some? {
      CapturedTokenReading(c.quantity.value.quantity);
      CapturedTokenReading(c.quantity.value.unit);
    }
    if c.price.Some? {
      CapturedTokenReading(c.price.value.price);
    }
  }

  /** `parseFloat(token.replace(',', '.'))` on a discount token: its unsigned value, negated
      exactly when the token starts with a minus sign. */
  function SignedValue(t: SignedAmountToken): (v: real)
    ensures t[0] == '-' ==> v == -AmountValue(Magnitude(t))
    ensures t[0] != '-' ==> v == AmountValue(Magnitude(t))
    ensures Abs(v) == AmountValue(Magnitude(t))
  {
    ReadSigned(t);
    ReadLiteral(t).value
  }

  /** The whole pipeline on OCR text: `capture` stands for the receipt patterns applied to one
      cleaned line. Blank text yields no items and no declared total. */
  function ParseText(text: string, capture: string -> Captures): (r: State)
    ensures Inv(r)
    ensures Text.AllSpace(text) ==> r.items == [] && r.declared == 0.0
  {
    var ls := Text.Lines(text);
    Parse(seq(|ls|, i requires 0 <= i < |ls| => ReadLine(capture(ls[i]))))
  }

  /** A quantity line followed by a promotion line: the quantity line "Melk 1.5 x 0,89"
      yields an item of gross price 1.335, and the following "Actieprijs -0,20" discounts it
      to 1.135. */
  lemma QuantityThenDiscountExample()
    ensures
      var melk := Captures(false, false, None, false, None, Some(QuantityCaptures("Melk", "1.5", "0,89")), None);
      var promo := Captures(false, false, None, true, Some("-0,20"), None, None);
      Parse([ReadLine(melk), ReadLine(promo)]).items == [Item("Melk", 1.335, 0.20, 1.135, 1.0)]
  {
    MelkLine();
    PromoLine();
    ParsedExample();
  }

  /** The parse of the two lines once their literals are read. */
  lemma ParsedExample()
    ensures
      var l1 := Line(false, false, None, false, None, Some(QuantityForm("Melk", 1.5, 0.89)), None);
      var l2 := Line(false, false, None, true, Some(-0.20), None, None);
      Parse([l1, l2]).items == [Item("Melk", 1.335, 0.20, 1.135, 1.0)]
  {
    var l1 := Line(false, false, None, false, None, Some(QuantityForm("Melk", 1.5, 0.89)), None);
    var l2 := Line(false, false, None, true, Some(-0.20), None, None);
    var s1 := Step(Start(), l1);
    assert s1.items == [Item("Melk", 1.335, 0.0, 1.335, 1.0)] && s1.last == Some(0);
    var s2 := Step(s1, l2);
    assert s2.items == [Item("Melk", 1.335, 0.20, 1.135, 1.0)];
    assert [l1, l2][1..] == [l2];
    assert Run(s1, [l2]) == Run(Step(s1, l2), []);
  }

  lemma MelkLine()
    ensures ReadLine(Captures(false, false, None, false, None, Some(QuantityCaptures("Melk", "1.5", "0,89")), None))
      == Line(false, false, None, false, None, Some(QuantityForm("Melk", 1.5, 0.89)), None)
  {
    Text.TrimPadded([], "Melk", []);
    assert [] + "Melk" + [] == "Melk";
    QuantityExample();
    UnitPriceExample();
  }

  lemma QuantityExample()
    ensures QuantityValue("1.5") == 1.5
  {
    assert DigitRun("1.5", 0) == 1;
    QuantityDigits("1.5", 1);
    assert ("1.5")[..1] == "1" && ("1.5")[2..] == "5";
    assert DigitsValue("1") == 1;
    assert FractionValue("5") == 0.5 by {
      assert DigitsValue("5") == 5;
      assert Shift(5.0, 1) == Shift(5.0, 0) / 10.0;
    }
  }

  lemma UnitPriceExample()
    ensures AmountValue("0,89") == 0.89
  {
    AmountDigits("0,89");
    assert ("0,89")[..1] == "0" && ("0,89")[2..] == "89";
    assert DigitsValue("89") == 89 && DigitsValue("0") == 0;
  }

  lemma PromoLine()
    ensures ReadLine(Captures(false, false, None, true, Some("-0,20"), None, None))
      == Line(false, false, None, true, Some(-0.20), None, None)
  {
    ReadSigned("-0,20");
    assert Magnitude("-0,20") == "0,20";
    PromoAmountExample();
  }

  lemma PromoAmountExample()
    ensures AmountValue("0,20") == 0.20
  {
    AmountDigits("0,20");
    assert ("0,20")[..1] == "0" && ("0,20")[2..] == "20";
    assert DigitsValue("20") == 20 && DigitsValue("0") == 0;
  }

  /** "TOTAAL 23,45" sets the declared total to 23.45, which is then the total shown. */
  lemma DeclaredTotalExample()
    ensures
      var total := Captures(false, true, Some("23,45"), false, None, None, None);
      var st := Parse([ReadLine(total)]);
      st.declared == 23.45 && UsableTotal(st) == 23.45
  {
    TotalAmountExample();
  }

  lemma TotalAmountExample()
    ensures AmountValue("23,45") == 23.45
  {
    AmountDigits("23,45");
    assert ("23,45")[..2] == "23" && ("23,45")[3..] == "45";
    assert DigitsValue("23") == 23 && DigitsValue("45") == 45;
  }

  /** "Brood 1,29 B": a simple priced line yields one undiscounted item of price 1.29. */
  lemma BreadExample()
    ensures
      var brood := Captures(false, false, None, false, None, None, Some(PriceCaptures("Brood", "1,29")));
      Parse([ReadLine(brood)]).items == [Item("Brood", 1.29, 0.0, 1.29, 1.0)]
  {
    BreadLine();
    var l := Line(false, false, None, false, None, None, Some(PriceForm("Brood", 1.29)));
    assert Step(Start(), l).items == [Item("Brood", 1.29, 0.0, 1.29, 1.0)];
  }

  lemma BreadLine()
    ensures ReadLine(Captures(false, false, None, false, None, None, Some(PriceCaptures("Brood", "1,29"))))
      == Line(false, false, None, false, None, None, Some(PriceForm("Brood", 1.29)))
  {
    Text.TrimPadded([], "Brood", []);
    assert [] + "Brood" + [] == "Brood";
    BreadPriceExample();
  }

  lemma BreadPriceExample()
    ensures AmountValue("1,29") == 1.29
  {
    AmountDigits("1,29");
    assert ("1,29")[..1] == "1" && ("1,29")[2..] == "29";
    assert DigitsValue("29") == 29 && DigitsValue("1") == 1;
  }
}

=== FILE: results.dfy ===
/** Failure-carrying values shared by the receipt and ledger modules. */
module Results {

  /** A value that may be absent: a JavaScript `null`, or a `NaN` from a failed number parse. */
  datatype Option<+T> = None | Some(value: T)

  /** The outcome of an operation that the application either performs or refuses with an alert. */
  datatype Result<+T, +E> = Ok(value: T) | Err(error: E)
}

=== FILE: selection.dfy ===
/** The receipt page after parsing: each item's fraction can be edited through a prompt, the
    checked items' shares are summed, and confirming records that sum as a debt of the person
    who did not pay. */
module Selection {
  import opened Results
  import Text
  import Decimal
  import opened ReceiptParser
  import opened DebtLedger

  /** The fraction prompt's reading: with a `/`, the text before and after the first `/` are read
      with `Number` and divided, a zero, blank or unreadable divisor giving no number; without a
      `/`, the text is read with `parseFloat`. */
  function ParseFraction(s: string): (r: Option<real>)
    ensures '/' !in s ==> r == Decimal.ParseFloat(s)
    ensures '/' in s && Decimal.NumberOf(Text.Split(s, '/')[1]) == Some(0.0) ==> r.None?
  {
    if '/' in s then
      var parts := Text.Split(s, '/');
      Quotient(Decimal.NumberOf(parts[0]), Decimal.NumberOf(parts[1]))
    else Decimal.ParseFloat(s)
  }

  /** `b ? a / b : NaN`: a zero or unreadable divisor, or an unreadable dividend, gives no number. */
  function Quotient(a: Option<real>, b: Option<real>): (r: Option<real>)
    ensures r.Some? <==> a.Some? && b.Some? && b.value != 0.0
    ensures r.Some? ==> r.value * b.value == a.value
  {
    if b.Some? && b.value != 0.0 && a.Some? then Some(a.value / b.value) else None
  }

  /** The bound the dialog enforces: a number, above 0 and at most 5. */
  predicate AcceptableFraction(v: Option<real>) {
    v.Some? && 0.0 < v.value <= 5.0
  }

  /** What the fraction dialog does: nothing when it was cancelled or left empty, an alert when the
      answer is not an acceptable fraction, otherwise the edited item list. */
  datatype FractionEdit = Dismissed | Rejected | Accepted(items: seq<Item>)

  function SetFraction(items: seq<Item>, idx: nat, input: Option<string>): (r: FractionEdit)
    requires idx < |items|
    ensures r.Dismissed? <==> input.None? || input.value == ""
    ensures r.Accepted? <==> !r.Dismissed? && AcceptableFraction(ParseFraction(input.value))
    ensures r.Accepted? ==> r.items == items[idx := items[idx].(fraction := ParseFraction(input.value).value)]
  {
    if input.None? || input.value == "" then Dismissed
    else
      var v := ParseFraction(input.value);
      if AcceptableFraction(v) then Accepted(items[idx := items[idx].(fraction := v.value)])
      else Rejected
  }

  /** An item as the selection works on it: reconciled, with a fraction the dialog accepts. */
  predicate ValidItem(it: Item) {
    Reconciled(it) && 0.0 < it.fraction <= 5.0
  }

  predicate ValidItems(items: seq<Item>) {
    forall i :: 0 <= i < |items| ==> ValidItem(items[i])
  }

  /** A fraction edit keeps the item list valid, and changes nothing but the one fraction. */
  lemma SetFractionKeepsValid(items: seq<Item>, idx: nat, input: Option<string>)
    requires idx < |items| && ValidItems(items)
    ensures SetFraction(items, idx, input).Accepted? ==>
      var r := SetFraction(items, idx, input).items;
      && ValidItems(r)
      && |r| == |items|
      && (forall i :: 0 <= i < |r| && i != idx ==> r[i] == items[i])
      && r[idx].name == items[idx].name && r[idx].price == items[idx].price
      && r[idx].discount == items[idx].discount && r[idx].finalPrice == items[idx].finalPrice
  {
  }

  /** Parsed items all start valid, with the whole item attributed. */
  lemma ParsedItemsValid(st: State)
    requires Inv(st)
    ensures ValidItems(st.items)
  {
  }

  /** A checkbox is ticked when it exists and is checked. */
  predicate IsChecked(checked: seq<bool>, i: nat) {
    i < |checked| && checked[i]
  }

  /** The part of an item the other person pays for. */
  function Share(it: Item): (v: real)
    ensures ValidItem(it) ==> 0.0 <= v <= 5.0 * it.finalPrice
  {
    ShareBounds(it.finalPrice, it.fraction);
    it.finalPrice * it.fraction
  }

  lemma ShareBounds(p: real, f: real)
    ensures p >= 0.0 && 0.0 < f <= 5.0 ==> 0.0 <= p * f <= 5.0 * p
  {
  }

  /** The selected sum: the shares of the checked items, accumulated in item order. */
  function SelectedTotal(items: seq<Item>, checked: seq<bool>): (r: real)
    ensures ValidItems(items) ==> 0.0 <= r <= 5.0 * NetSum(items)
  {
    if items == [] then 0.0
    else
      var n := |items| - 1;
      assert ValidItems(items) ==> ValidItems(items[..n]);
      SelectedTotal(items[..n], checked) + (if IsChecked(checked, n) then Share(items[n]) else 0.0)
  }

  /** With valid items the selected sum is zero exactly when every checked item is free. */
  lemma {:induction false} SelectedTotalZero(items: seq<Item>, checked: seq<bool>)
    requires ValidItems(items)
    ensures SelectedTotal(items, checked) == 0.0 <==>
      forall i :: 0 <= i < |items| && IsChecked(checked, i) ==> items[i].finalPrice == 0.0
  {
    if items != [] {
      var n := |items| - 1;
      var init := items[..n];
      assert forall i :: 0 <= i < n ==> init[i] == items[i];
      SelectedTotalZero(init, checked);
      ShareZero(items[n]);
    }
  }

  lemma ShareZero(it: Item)
    requires ValidItem(it)
    ensures Share(it) == 0.0 <==> it.finalPrice == 0.0
  {
  }

  /** Ticking an unticked box adds exactly that item's share to the sum. */
  lemma {:induction false} TickAdds(items: seq<Item>, checked: seq<bool>, k: nat)
    requires k < |items| && k < |checked| && !checked[k]
    ensures SelectedTotal(items, checked[k := true]) == SelectedTotal(items, checked) + Share(items[k])
  {
    var n := |items| - 1;
    if k == n {
      SelectedUpTo(items[..n], checked, checked[k := true]);
    } else {
      TickAdds(items[..n], checked, k);
    }
  }

  /** Changing the share of one checked item by `d`, and nothing else, moves the sum by `d`. */
  lemma {:induction false} ShareEditShifts(items: seq<Item>, e: seq<Item>, checked: seq<bool>, k: nat, d: real)
    requires k < |items| && IsChecked(checked, k)
    requires |e| == |items| && e == items[k := e[k]]
    requires Share(e[k]) == Share(items[k]) + d
    ensures SelectedTotal(e, checked) == SelectedTotal(items, checked) + d
  {
    var n := |items| - 1;
    var ti := if IsChecked(checked, n) then Share(items[n]) else 0.0;
    var te := if IsChecked(checked, n) then Share(e[n]) else 0.0;
    assert SelectedTotal(items, checked) == SelectedTotal(items[..n], checked) + ti;
    assert SelectedTotal(e, checked) == SelectedTotal(e[..n], checked) + te;
    if k == n {
      assert e[..n] == items[..n];
    } else {
      assert e[..n] == items[..n][k := e[k]];
      ShareEditShifts(items[..n], e[..n], checked, k, d);
      assert e[n] == items[n];
    }
  }

  /** Editing the fraction of a checked item from `g` to `f` moves the selected sum by the item's
      net price times `f - g`: the share is the net price weighted by the fraction. */
  lemma FractionEditShifts(items: seq<Item>, checked: seq<bool>, k: nat, f: real)
    requires k < |items| && IsChecked(checked, k)
    ensures SelectedTotal(items[k := items[k].(fraction := f)], checked)
      == SelectedTotal(items, checked) + items[k].finalPrice * (f - items[k].fraction)
  {
    var it := items[k];
    FractionEditStep(items, checked, k, f, items[k := it.(fraction := f)], it.finalPrice * (f - it.fraction));
  }

  lemma FractionEditStep(items: seq<Item>, checked: seq<bool>, k: nat, f: real, e: seq<Item>, d: real)
    requires k < |items| && IsChecked(checked, k)
    requires e == items[k := items[k].(fraction := f)] && d == items[k].finalPrice * (f - items[k].fraction)
    ensures SelectedTotal(e, checked) == SelectedTotal(items, checked) + d
  {
    ShareShift(items[k], f, d);
    ShareEditShifts(items, e, checked, k, d);
  }

  /** Re-weighting an item's net price by the fraction `f` moves its share by the price times the
      change of fraction. */
  lemma ShareShift(it: Item, f: real, d: real)
    requires d == it.finalPrice * (f - it.fraction)
    ensures Share(it.(fraction := f)) == Share(it) + d
  {
  }

  /** The sum depends only on the boxes of the items it covers. */
  lemma {:induction false} SelectedUpTo(items: seq<Item>, c1: seq<bool>, c2: seq<bool>)
    requires forall i :: 0 <= i < |items| ==> IsChecked(c1, i) == IsChecked(c2, i)
    ensures SelectedTotal(items, c1) == SelectedTotal(items, c2)
  {
    if items != [] {
      SelectedUpTo(items[..|items| - 1], c1, c2);
    }
  }

  /** With every item ticked and wholly attributed, the selected sum is the net receipt sum. */
  lemma {:induction false} AllWholeIsNet(items: seq<Item>, checked: seq<bool>)
    requires forall i :: 0 <= i < |items| ==> IsChecked(checked, i) && items[i].fraction == 1.0
    ensures SelectedTotal(items, checked) == NetSum(items)
  {
    if items != [] {
      AllWholeIsNet(items[..|items| - 1], checked);
    }
  }

  /** The page's running sum: the loop over the items, adding the share of each checked one. */
  method UpdateSelectedSum(items: seq<Item>, checked: seq<bool>) returns (total: real)
    ensures total == SelectedTotal(items, checked)
    ensures ValidItems(items) ==> 0.0 <= total <= 5.0 * NetSum(items)
  {
    total := 0.0;
    var i := 0;
    while i < |items|
      invariant 0 <= i <= |items|
      invariant total == SelectedTotal(items[..i], checked)
    {
      assert items[..i + 1][..i] == items[..i];
      if i < |checked| && checked[i] {
        total := total + Share(items[i]);
      }
      i := i + 1;
    }
    assert items[..|items|] == items;
  }

  /** Why confirming refuses: nothing of value is selected. */
  datatype ConfirmError = NothingSelected

  /** Confirming the selection: the selected sum becomes a new debt of the person who did not pay,
      noted with the receipt's declared total (0 when the receipt had no total line, even though
      the page then shows the item sum). A zero sum is refused with an alert. */
  function Confirm(l: Ledger, payer: Party, items: seq<Item>, checked: seq<bool>, declared: real, date: string)
    : (r: Result<Ledger, ConfirmError>)
    ensures r.Err? <==> SelectedTotal(items, checked) == 0.0
    ensures r.Ok? ==>
      Debts(r.value, Other(payer)) == Debts(l, Other(payer)) + [Entry(SelectedTotal(items, checked), date, ReceiptNote(declared))]
    ensures r.Ok? ==> Debts(r.value, payer) == Debts(l, payer) && r.value.history == l.history
    ensures r.Ok? && Valid(l) && ValidItems(items) ==> Valid(r.value)
  {
    var total := SelectedTotal(items, checked);
    if total == 0.0 then Err(NothingSelected)
    else
      var debtor := Other(payer);
      Ok(WithDebts(l, debtor, Debts(l, debtor) + [Entry(total, date, ReceiptNote(declared))]))
  }

  /** Confirming raises the debtor's total by exactly the selected sum. */
  lemma ConfirmAddsSelected(l: Ledger, payer: Party, items: seq<Item>, checked: seq<bool>, declared: real, date: string)
    requires Confirm(l, payer, items, checked, declared, date).Ok?
    ensures DebtTotal(Debts(Confirm(l, payer, items, checked, declared, date).value, Other(payer)))
      == DebtTotal(Debts(l, Other(payer))) + SelectedTotal(items, checked)
  {
    var e := Entry(SelectedTotal(items, checked), date, ReceiptNote(declared));
    TotalAppend(Debts(l, Other(payer)), e);
  }

  /** A fraction typed as "a/b" with whole numbers reads as their quotient, and as nothing when
      the divisor is zero. */
  lemma FractionRoundTrip(a: nat, b: nat)
    ensures ParseFraction(Decimal.ShowNat(a) + "/" + Decimal.ShowNat(b))
      == if b == 0 then None else Some(a as real / b as real)
  {
    var sa := Decimal.ShowNat(a);
    var sb := Decimal.ShowNat(b);
    var q := Quotient(Some(a as real), Some(b as real));
    assert ParseFraction(sa + "/" + sb) == q by {
      FractionParts(sa, sb);
      NumberOfShowNat(a);
      NumberOfShowNat(b);
    }
    assert q == if b == 0 then None else Some(a as real / b as real);
  }

  /** Text with one `/` between two digit strings is read as the quotient of their readings. */
  lemma FractionParts(sa: string, sb: string)
    requires Decimal.AllDigits(sa) && Decimal.AllDigits(sb)
    ensures ParseFraction(sa + "/" + sb) == Quotient(Decimal.NumberOf(sa), Decimal.NumberOf(sb))
  {
    var s := sa + "/" + sb;
    SplitPair(sa, sb);
    assert s[|sa|] == '/';
  }

  /** `Number` reads a rendered whole number back. */
  lemma NumberOfShowNat(n: nat)
    ensures Decimal.NumberOf(Decimal.ShowNat(n)) == Some(n as real)
  {
    Decimal.ParseShowNat(n);
    Decimal.FloatReadsLiterals(Decimal.ShowNat(n));
  }

  /** Only the text before the first `/` and between the first and second `/` is read: the
      destructuring ignores any further pieces. */
  lemma FractionPartsIgnoreRest(sa: string, sb: string, rest: string)
    requires Decimal.AllDigits(sa) && Decimal.AllDigits(sb)
    ensures ParseFraction(sa + "/" + sb + "/" + rest) == Quotient(Decimal.NumberOf(sa), Decimal.NumberOf(sb))
  {
    var s := sa + "/" + sb + "/" + rest;
    FirstTwoPieces(sa, sb, rest);
    assert s[|sa|] == '/';
  }

  lemma FirstTwoPieces(sa: string, sb: string, rest: string)
    requires Decimal.AllDigits(sa) && Decimal.AllDigits(sb)
    ensures var parts := Text.Split(sa + "/" + sb + "/" + rest, '/');
      |parts| >= 2 && parts[0] == sa && parts[1] == sb
  {
    NoSlashInDigits(sa);
    NoSlashInDigits(sb);
    var t := sb + ['/'] + rest;
    assert sa + "/" + sb + "/" + rest == sa + ['/'] + t;
    var q := Text.Split(t, '/');
    assert q == [sb] + Text.Split(rest, '/') by {
      Text.SplitAround(sb, rest, '/');
      Text.SplitNone(sb, '/');
    }
    Text.SplitAround(sa, t, '/');
    Text.SplitNone(sa, '/');
    assert Text.Split(sa + ['/'] + t, '/') == [sa] + q;
  }

  /** Two rendered numbers around a `/` split back into the two renderings. */
  lemma SplitPair(sa: string, sb: string)
    requires Decimal.AllDigits(sa) && Decimal.AllDigits(sb)
    ensures Text.Split(sa + "/" + sb, '/') == [sa, sb]
  {
    NoSlashInDigits(sa);
    NoSlashInDigits(sb);
    assert [sa, sb][1..] == [sb];
    assert Text.Join([sa, sb], '/') == sa + "/" + sb;
    Text.SplitJoin([sa, sb], '/');
  }

  lemma NoSlashInDigits(s: string)
    requires Decimal.AllDigits(s)
    ensures '/' !in s
  {
    assert forall i :: 0 <= i < |s| ==> s[i] != '/' by {
      assert forall i :: 0 <= i < |s| ==> Decimal.IsDigit(s[i]);
    }
  }

  /** The dialog accepts any whole-number fraction "a/b" within the bound, such as "2/3", and
      sets exactly that fraction. */
  lemma WholeFractionAccepted(items: seq<Item>, idx: nat, a: nat, b: nat)
    requires idx < |items| && b > 0
    requires 0.0 < a as real / b as real <= 5.0
    ensures SetFraction(items, idx, Some(Decimal.ShowNat(a) + "/" + Decimal.ShowNat(b)))
      == Accepted(items[idx := items[idx].(fraction := a as real / b as real)])
  {
    FractionRoundTrip(a, b);
  }

  /** "1/0" has no value and is refused. */
  lemma ZeroDivisorExample(items: seq<Item>, idx: nat)
    requires idx < |items|
    ensures SetFraction(items, idx, Some("1/0")) == Rejected
  {
    ZeroDivisorReading();
  }

  lemma ZeroDivisorReading()
    ensures ParseFraction("1/0") == None
  {
    assert Decimal.ShowNat(1) == "1" && Decimal.ShowNat(0) == "0";
    FractionRoundTrip(1, 0);
    assert "1" + "/" + "0" == "1/0";
  }

  /** Whole numbers outside the bound are refused: "0" and "6". */
  lemma OutOfBoundExamples(items: seq<Item>, idx: nat)
    requires idx < |items|
    ensures SetFraction(items, idx, Some("0")) == Rejected
    ensures SetFraction(items, idx, Some("6")) == Rejected
  {
    assert Decimal.ShowNat(0) == "0" && Decimal.ShowNat(6) == "6";
    Decimal.ParseFloatStopsEarly(0, "");
    Decimal.ParseFloatStopsEarly(6, "");
    assert "0" + "" == "0" && "6" + "" == "6";
  }

  /** A negative answer is refused. */
  lemma NegativeExample(items: seq<Item>, idx: nat)
    requires idx < |items|
    ensures SetFraction(items, idx, Some("-1")) == Rejected
  {
    assert ParseFraction("-1") == Decimal.ParseFloat("-1");
  }

  /** Without a `/`, the answer is read by `parseFloat`, which stops at a comma: "1,5" sets the
      fraction to 1, not 1.5. */
  lemma CommaExample(items: seq<Item>, idx: nat)
    requires idx < |items|
    ensures SetFraction(items, idx, Some("1,5")) == Accepted(items[idx := items[idx].(fraction := 1.0)])
  {
    assert Decimal.ShowNat(1) == "1";
    Decimal.ParseFloatStopsEarly(1, ",5");
    assert "1" + ",5" == "1,5";
    assert '/' !in "1,5";
  }

  /** With a `/`, each side must be a whole number: "1,5/2" is refused, because `Number` does not
      stop at the comma the way `parseFloat` does. */
  lemma CommaQuotientExample(items: seq<Item>, idx: nat)
    requires idx < |items|
    ensures SetFraction(items, idx, Some("1,5/2")) == Rejected
  {
    CommaQuotientReading();
  }

  lemma CommaQuotientReading()
    ensures ParseFraction("1,5/2") == None
  {
    CommaQuotientSplit();
    CommaNumber();
  }

  lemma CommaQuotientSplit()
    ensures Text.Split("1,5/2", '/') == ["1,5", "2"]
  {
    assert '/' !in "1,5" && '/' !in "2";
    assert ["1,5", "2"][1..] == ["2"];
    assert Text.Join(["1,5", "2"], '/') == "1,5/2";
    Text.SplitJoin(["1,5", "2"], '/');
  }

  lemma CommaNumber()
    ensures Decimal.NumberOf("1,5") == None
  {
    assert Decimal.ShowNat(1) == "1";
    Decimal.NumberRejectsTrailing(1, ",5");
    assert "1" + ",5" == "1,5";
  }
}

=== FILE: text.dfy ===
/** String handling the receipt flow relies on: JavaScript's `trim`, splitting on a separator
    character, and the cleaning of OCR text into non-empty trimmed lines. */
module Text {

  /** The characters `String.prototype.trim` removes: the ECMAScript WhiteSpace
      (TAB, VT, FF, SP, NBSP, ZWNBSP and the Zs space separators) and LineTerminator
      (LF, CR, LS, PS) code points. */
  const Whitespace: set<char> := {
    '\t', '\U{000B}', '\U{000C}', ' ', '\U{00A0}', '\U{FEFF}', '\U{1680}',
    '\U{2000}', '\U{2001}', '\U{2002}', '\U{2003}', '\U{2004}', '\U{2005}',
    '\U{2006}', '\U{2007}', '\U{2008}', '\U{2009}', '\U{200A}',
    '\U{202F}', '\U{205F}', '\U{3000}',
    '\n', '\r', '\U{2028}', '\U{2029}'
  }

  predicate IsSpace(c: char) {
    c in Whitespace
  }

  predicate AllSpace(s: string) {
    forall i :: 0 <= i < |s| ==> IsSpace(s[i])
  }

  /** Every character of `s` from position `lo` up to, not including, `hi` is whitespace. */
  predicate SpacesBetween(s: string, lo: nat, hi: nat)
    requires lo <= hi <= |s|
  {
    forall k :: lo <= k < hi ==> IsSpace(s[k])
  }

  /** Neither end of `s` is whitespace. */
  predicate IsTrimmed(s: string) {
    s == [] || (!IsSpace(s[0]) && !IsSpace(s[|s| - 1]))
  }

  /** The first position at or after `i` that holds a non-space, or `|s|`. */
  function ContentStart(s: string, i: nat): (j: nat)
    requires i <= |s|
    ensures i <= j <= |s|
    ensures SpacesBetween(s, i, j)
    ensures j < |s| ==> !IsSpace(s[j])
    decreases |s| - i
  {
    if i == |s| || !IsSpace(s[i]) then i else ContentStart(s, i + 1)
  }

  /** The first non-space at or after `i` is wherever only spaces precede it. */
  lemma {:induction false} ContentStartIs(s: string, i: nat, j: nat)
    requires i <= j <= |s| && SpacesBetween(s, i, j)
    requires j < |s| ==> !IsSpace(s[j])
    ensures ContentStart(s, i) == j
    decreases j - i
  {
    if i < j {
      ContentStartIs(s, i + 1, j);
    }
  }

  /** Leading whitespace shifts where the content starts by its length. */
  lemma ContentStartAfter(pre: string, s: string)
    requires AllSpace(pre)
    ensures ContentStart(pre + s, 0) == |pre| + ContentStart(s, 0)
  {
    var x := pre + s;
    var k := ContentStart(s, 0);
    assert forall i :: 0 <= i < |pre| ==> x[i] == pre[i];
    assert forall i :: |pre| <= i < |pre| + k ==> x[i] == s[i - |pre|];
    assert |pre| + k < |x| ==> x[|pre| + k] == s[k];
    ContentStartIs(x, 0, |pre| + k);
  }

  /** The position just after the last non-space before `j`, or 0. */
  function ContentEnd(s: string, j: nat): (e: nat)
    requires j <= |s|
    ensures e <= j
    ensures SpacesBetween(s, e, j)
    ensures e > 0 ==> !IsSpace(s[e - 1])
  {
    if j == 0 || !IsSpace(s[j - 1]) then j else ContentEnd(s, j - 1)
  }

  /** JavaScript's `trim`: the slice of `s` left after removing whitespace at both ends. */
  function Trim(s: string): (r: string)
    ensures IsTrimmed(r)
    ensures r == [] <==> AllSpace(s)
    ensures var lo := ContentStart(s, 0);
      && lo + |r| <= |s|
      && r == s[lo..lo + |r|]
      && SpacesBetween(s, 0, lo)
      && SpacesBetween(s, lo + |r|, |s|)
  {
    var lo := ContentStart(s, 0);
    var hi := ContentEnd(s, |s|);
    if lo == |s| then [] else s[lo..hi]
  }

  /** Surrounding whitespace is exactly what trimming removes: a trimmed, non-empty
      core padded with whitespace on either side trims back to that core. */
  lemma TrimPadded(pre: string, core: string, post: string)
    requires AllSpace(pre) && AllSpace(post)
    requires core != [] && IsTrimmed(core)
    ensures Trim(pre + core + post) == core
  {
    var s := pre + core + post;
    assert s[|pre|] == core[0];
    assert s[|pre| + |core| - 1] == core[|core| - 1];
    assert SpacesBetween(s, 0, |pre|);
    assert SpacesBetween(s, |pre| + |core|, |s|);
    assert s[|pre|..|pre| + |core|] == core;
  }

  /** Position of the first `c` in `s`, or `|s|` when there is none. */
  function IndexOf(s: string, c: char): (k: nat)
    ensures k <= |s|
    ensures c !in s[..k]
    ensures k < |s| ==> s[k] == c
  {
    if s == [] || s[0] == c then 0
    else
      var k := 1 + IndexOf(s[1..], c);
      assert s[..k] == [s[0]] + s[1..][..k - 1];
      k
  }

  /** JavaScript's `s.replace(a, b)` with a one-character string pattern: only the first
      occurrence of `a` is replaced. */
  function ReplaceFirst(s: string, a: char, b: char): (r: string)
    ensures |r| == |s|
    ensures forall i :: 0 <= i < |s| && i != IndexOf(s, a) ==> r[i] == s[i]
    ensures IndexOf(s, a) < |s| ==> r[IndexOf(s, a)] == b
  {
    var k := IndexOf(s, a);
    if k == |s| then s else s[..k] + [b] + s[k + 1..]
  }

  /** A leading character other than the pattern is kept, and the replacement happens in the rest. */
  lemma ReplaceFirstCons(c: char, s: string, a: char, b: char)
    requires c != a
    ensures ReplaceFirst([c] + s, a, b) == [c] + ReplaceFirst(s, a, b)
  {
    var t := [c] + s;
    assert t[1..] == s;
    assert IndexOf(t, a) == 1 + IndexOf(s, a);
    var x := ReplaceFirst(t, a, b);
    var y := [c] + ReplaceFirst(s, a, b);
    assert forall i :: 1 <= i < |t| ==> x[i] == y[i];
  }

  /** The first occurrence is found where the text says it is. */
  lemma IndexOfFirst(s: string, c: char, k: nat)
    requires k < |s| && s[k] == c
    requires forall i :: 0 <= i < k ==> s[i] != c
    ensures IndexOf(s, c) == k
  {
  }

  /** Pieces between separators are joined back with one separator between each pair. */
  function Join(parts: seq<string>, sep: char): string
  {
    if |parts| == 0 then []
    else if |parts| == 1 then parts[0]
    else parts[0] + [sep] + Join(parts[1..], sep)
  }

  /** JavaScript's `s.split(sep)` for a one-character separator. */
  function Split(s: string, sep: char): (parts: seq<string>)
    ensures |parts| >= 1
    ensures forall i :: 0 <= i < |parts| ==> sep !in parts[i]
    ensures Join(parts, sep) == s
    ensures |parts| == 1 <==> sep !in s
    decreases |s|
  {
    var k := IndexOf(s, sep);
    if k == |s| then
      assert s[..k] == s;
      [s]
    else
      var rest := Split(s[k + 1..], sep);
      assert s == s[..k] + [sep] + s[k + 1..];
      [s[..k]] + rest
  }

  /** Splitting undoes joining, so `Split` and `Join` are inverse on separator-free pieces. */
  lemma {:induction false} SplitJoin(parts: seq<string>, sep: char)
    requires |parts| >= 1
    requires forall i :: 0 <= i < |parts| ==> sep !in parts[i]
    ensures Split(Join(parts, sep), sep) == parts
    decreases |parts|
  {
    if |parts| == 1 {
      IndexOfAbsent(parts[0], sep);
    } else {
      var rest := Join(parts[1..], sep);
      var s := parts[0] + [sep] + rest;
      IndexOfAbsent(parts[0], sep);
      assert IndexOf(s, sep) == |parts[0]| by {
        IndexOfAfterPrefix(parts[0], sep, rest);
      }
      assert s[|parts[0]| + 1..] == rest;
      assert s[..|parts[0]|] == parts[0];
      SplitJoin(parts[1..], sep);
    }
  }

  lemma {:induction false} IndexOfAbsent(s: string, c: char)
    requires c !in s
    ensures IndexOf(s, c) == |s|
  {
    if s != [] {
      assert s[0] in s;
      IndexOfAbsent(s[1..], c);
    }
  }

  lemma {:induction false} IndexOfAfterPrefix(pre: string, c: char, post: string)
    requires c !in pre
    ensures IndexOf(pre + [c] + post, c) == |pre|
  {
    if pre != [] {
      assert pre[0] in pre;
      assert (pre + [c] + post)[1..] == pre[1..] + [c] + post;
      IndexOfAfterPrefix(pre[1..], c, post);
    }
  }

  /** The OCR text cleaning step: split on newlines, trim each line, drop empty lines. */
  function Lines(text: string): (ls: seq<string>)
    ensures forall i :: 0 <= i < |ls| ==> ls[i] != [] && IsTrimmed(ls[i]) && '\n' !in ls[i]
    ensures |ls| <= |Split(text, '\n')|
    ensures ls == [] <==> AllSpace(text)
  {
    var parts := Split(text, '\n');
    CleanEmptyIffBlank(parts);
    JoinBlank(parts, '\n');
    Clean(parts)
  }

  /** Trims each piece and keeps the non-empty ones, in order. */
  function Clean(parts: seq<string>): (ls: seq<string>)
    requires forall i :: 0 <= i < |parts| ==> '\n' !in parts[i]
    ensures forall i :: 0 <= i < |ls| ==> ls[i] != [] && IsTrimmed(ls[i]) && '\n' !in ls[i]
    ensures |ls| <= |parts|
  {
    if parts == [] then []
    else
      var t := Trim(parts[0]);
      var rest := Clean(parts[1..]);
      TrimAdds(parts[0], '\n');
      if t == [] then rest else [t] + rest
  }

  /** Trimming only removes characters. */
  lemma TrimAdds(s: string, c: char)
    requires c !in s
    ensures c !in Trim(s)
  {
    var t := Trim(s);
    var lo := ContentStart(s, 0);
    assert forall j :: 0 <= j < |t| ==> t[j] == s[lo + j];
  }

  lemma {:induction false} CleanEmptyIffBlank(parts: seq<string>)
    requires forall i :: 0 <= i < |parts| ==> '\n' !in parts[i]
    ensures Clean(parts) == [] <==> forall i :: 0 <= i < |parts| ==> AllSpace(parts[i])
  {
    if parts != [] {
      CleanEmptyIffBlank(parts[1..]);
      assert forall i :: 1 <= i < |parts| ==> parts[i] == parts[1..][i - 1];
    }
  }

  lemma {:induction false} JoinBlank(parts: seq<string>, sep: char)
    requires IsSpace(sep)
    ensures AllSpace(Join(parts, sep)) <==> forall i :: 0 <= i < |parts| ==> AllSpace(parts[i])
    decreases |parts|
  {
    if |parts| > 1 {
      JoinBlank(parts[1..], sep);
      var j := Join(parts[1..], sep);
      var s := parts[0] + [sep] + j;
      assert forall i :: 1 <= i < |parts| ==> parts[i] == parts[1..][i - 1];
      if AllSpace(s) {
        assert forall i :: 0 <= i < |parts[0]| ==> s[i] == parts[0][i];
        assert forall i :: 0 <= i < |j| ==> s[|parts[0]| + 1 + i] == j[i];
      }
    }
  }

  /** Joining two non-empty lists of pieces puts one separator between their joins. */
  lemma {:induction false} JoinAppend(p: seq<string>, q: seq<string>, sep: char)
    requires |p| >= 1 && |q| >= 1
    ensures Join(p + q, sep) == Join(p, sep) + [sep] + Join(q, sep)
    decreases |p|
  {
    assert (p + q)[0] == p[0];
    assert (p + q)[1..] == p[1..] + q;
    if |p| > 1 {
      JoinAppend(p[1..], q, sep);
    }
  }

  /** Splitting text made of two parts around a separator splits each part on its own. */
  lemma SplitAround(a: string, b: string, sep: char)
    ensures Split(a + [sep] + b, sep) == Split(a, sep) + Split(b, sep)
  {
    var p := Split(a, sep);
    var q := Split(b, sep);
    assert Join(p + q, sep) == a + [sep] + b by {
      JoinAppend(p, q, sep);
    }
    SeparatorFreeAppend(p, q, sep);
    SplitJoin(p + q, sep);
  }

  lemma SeparatorFreeAppend(p: seq<string>, q: seq<string>, sep: char)
    requires forall i :: 0 <= i < |p| ==> sep !in p[i]
    requires forall i :: 0 <= i < |q| ==> sep !in q[i]
    ensures forall i :: 0 <= i < |p + q| ==> sep !in (p + q)[i]
  {
    assert forall i :: 0 <= i < |p| ==> (p + q)[i] == p[i];
    assert forall i :: |p| <= i < |p + q| ==> (p + q)[i] == q[i - |p|];
  }

  /** Cleaning works piece by piece. */
  lemma {:induction false} CleanAppend(a: seq<string>, b: seq<string>)
    requires forall i :: 0 <= i < |a| ==> '\n' !in a[i]
    requires forall i :: 0 <= i < |b| ==> '\n' !in b[i]
    ensures Clean(a + b) == Clean(a) + Clean(b)
  {
    if a == [] {
      assert a + b == b;
    } else {
      CleanAppend(a[1..], b);
      CleanStep(a, b);
    }
  }

  /** One step of `CleanAppend`: the first piece of `a` is cleaned the same way in `a + b`. */
  lemma CleanStep(a: seq<string>, b: seq<string>)
    requires a != []
    requires forall i :: 0 <= i < |a| ==> '\n' !in a[i]
    requires forall i :: 0 <= i < |b| ==> '\n' !in b[i]
    requires Clean(a[1..] + b) == Clean(a[1..]) + Clean(b)
    ensures Clean(a + b) == Clean(a) + Clean(b)
  {
    var x, y := Clean(a[1..]), Clean(b);
    CleanAfterHead(a, b);
    CleanHead(a);
    if !AllSpace(a[0]) {
      Regroup([Trim(a[0])], x, y);
    }
  }

  lemma CleanAfterHead(a: seq<string>, b: seq<string>)
    requires a != []
    requires forall i :: 0 <= i < |a| ==> '\n' !in a[i]
    requires forall i :: 0 <= i < |b| ==> '\n' !in b[i]
    ensures AllSpace(a[0]) ==> Clean(a + b) == Clean(a[1..] + b)
    ensures !AllSpace(a[0]) ==> Clean(a + b) == [Trim(a[0])] + Clean(a[1..] + b)
  {
    DropAppend(a, b);
    CleanHead(a + b);
  }

  lemma DropAppend<T>(a: seq<T>, b: seq<T>)
    requires a != []
    ensures (a + b)[0] == a[0] && (a + b)[1..] == a[1..] + b
  {
  }

  lemma Regroup<T>(x: seq<T>, y: seq<T>, z: seq<T>)
    ensures x + (y + z) == (x + y) + z
  {
  }

  /** `Clean` of a non-empty list: the first piece's contribution, then the rest. */
  lemma CleanHead(parts: seq<string>)
    requires parts != []
    requires forall i :: 0 <= i < |parts| ==> '\n' !in parts[i]
    ensures AllSpace(parts[0]) ==> Clean(parts) == Clean(parts[1..])
    ensures !AllSpace(parts[0]) ==> Clean(parts) == [Trim(parts[0])] + Clean(parts[1..])
  {
  }

  /** A single piece cleans to its trimmed form, or to nothing when it is blank. */
  lemma CleanOne(p: string)
    requires '\n' !in p
    ensures Clean([p]) == if AllSpace(p) then [] else [Trim(p)]
  {
    assert [p][1..] == [];
  }

  /** The text after a newline contributes its own lines after those of the text before it. */
  lemma LinesAround(a: string, b: string)
    ensures Lines(a + "\n" + b) == Lines(a) + Lines(b)
  {
    assert a + "\n" + b == a + ['\n'] + b;
    SplitAround(a, b, '\n');
    CleanAppend(Split(a, '\n'), Split(b, '\n'));
  }

  /** A line without a newline is kept trimmed unless it is blank. Together with `LinesAround`
      this says that `Lines` is the trimmed, non-blank newline-separated pieces, in order. */
  lemma LinesOne(p: string)
    requires '\n' !in p
    ensures Lines(p) == if AllSpace(p) then [] else [Trim(p)]
  {
    var parts := Split(p, '\n');
    assert parts == [p] by {
      assert |parts| == 1;
      assert Join(parts, '\n') == parts[0];
    }
    CleanOne(p);
  }

  /** Text without the separator splits into itself alone. */
  lemma SplitNone(s: string, sep: char)
    requires sep !in s
    ensures Split(s, sep) == [s]
  {
    var parts := Split(s, sep);
    assert |parts| == 1;
    assert Join(parts, sep) == parts[0];
  }
}
